=== FILE: README.md ===
# Entity-match categorizer and project archiver, modelled in Dafny

This project models the two pure cores of the `cognite-python-utils` helpers in Dafny.

**`EntityMatchCategorizer`** (module `EntityMatchCategorizer`, properties in `CategorizerProperties`). The categorizer's only state is an optional pattern table. `group_matches_by_pattern` works in these steps:

1. It checks that the input is a mapping holding `"items"`.
2. It flattens every item that has candidates to its top-ranked match.
3. It checks the two requested fields on the first flattened match.
4. It sends one rule input per match to the remote rule-extraction service.
5. It builds one table row per returned pattern. Each row's `matchIndex` subscripts are resolved against the flattened matches.
6. It replaces the table in one step.

`to_pandas`, `inspect_pattern` and `save_patterns_to_cdf` read the table and fail while it is absent. Subscripts follow Python's rule: an index `i` is valid for a length `n` when `-n <= i < n`, and a negative index counts from the end (module `PySeq`). The remote `create_rules` call is a function parameter (`RuleService`). `save_patterns_to_cdf` is modelled up to the update list it submits and the count it logs.

**`ProjectArchiver`** (modules `ProjectArchiver` and `FileDownloads`):
- the closed map from resource type to label;
- the file names an archive call writes;
- which directory, listing and write actions `_archive_standard_resources` takes, with the listing as a parameter;
- the routing of the nine public methods;
- the batch-and-retry loop of `_download_files`.

A download pass cuts the work list into `len // 100 + 1` slices of width 100 and tries each slice once. The next pass retries exactly the slices whose download raised. Which downloads raise is given as a set of (pass, batch position) pairs. The loop itself has no attempt cap, so the model runs it on fuel (`maxPasses`).

Files:
- `results.dfy`: `Option`, `Result`, `Outcome`;
- `pyseq.dfy`: Python subscripts, slices and list concatenation;
- `categorizer.dfy` and `categorizer_properties.dfy`;
- `archiver.dfy`;
- `downloads.dfy`.

Behaviour of the code that the model keeps:
- **An empty service answer.** `pd.DataFrame([])` has no columns, so the `"inputPattern"` lookup raises a KeyError. This is `NoRuleColumns`, and the table is kept.
- **Rule inputs.** They subscript the requested fields on every match; only the first match's fields are checked beforehand. A later match that lacks a field raises a KeyError (`MissingKey`).
- **Negative subscripts.** `iloc` and list subscripts accept them, so only subscripts outside `-n <= i < n` are errors.
- **The `n_matches` column.** It is the service's `numMatches`, copied unchanged. Nothing in the code makes the column add up to the number of flattened matches, so the model proves only that each row carries the service's count (`ViewOfResolved`).

## Model

| member | source | states |
|---|---|---|
| EntityMatchCategorizer.New | cognite/utils/contextualization/_entity_match_categorizer.py:20-22 | a new categorizer has no pattern table |
| EntityMatchCategorizer.Flatten | cognite/utils/contextualization/_entity_match_categorizer.py:35-43 | an item contributes at most one match (its contents are stated by FlattenKeeps, FlattenDrops and FlattenMembers) |
| EntityMatchCategorizer.FlattenAppend | cognite/utils/contextualization/_entity_match_categorizer.py:35-43 | flattening a list split in two gives the two flattened parts joined in order, so the order of items is kept |
| EntityMatchCategorizer.FlattenKeeps | cognite/utils/contextualization/_entity_match_categorizer.py:35-43 | an item with candidates contributes exactly (its source, its first candidate's target, that candidate's score), placed after the matches of the items before it |
| EntityMatchCategorizer.FlattenDrops | cognite/utils/contextualization/_entity_match_categorizer.py:41-42 | an item with an empty candidate list contributes nothing |
| EntityMatchCategorizer.FlattenMembers | cognite/utils/contextualization/_entity_match_categorizer.py:35-43 | a match is in the flattened list if and only if it is the top-ranked match of some item that has candidates |
| EntityMatchCategorizer.Get | cognite/utils/contextualization/_entity_match_categorizer.py:47-49 | `dict.get` gives null exactly when the key is absent or maps to null, and otherwise the stored value |
| EntityMatchCategorizer.CheckFields | cognite/utils/contextualization/_entity_match_categorizer.py:46-50 | the check passes if and only if a first match exists and both fields are present and non-null on it; an empty list fails with NoMatches; a missing or null source field fails on the source side even when the target field is also missing |
| EntityMatchCategorizer.CheckFieldsLooksAtFirst | cognite/utils/contextualization/_entity_match_categorizer.py:47-50 | matches after the first never change the outcome of the field check |
| EntityMatchCategorizer.Lookups | cognite/utils/contextualization/_entity_match_categorizer.py:56-57 | subscripting two keys on every match succeeds if and only if every match has both keys; then the k-th pair is the k-th match's two values; otherwise the KeyError comes from the first match lacking a key, and names the source key when that match lacks it, the target key otherwise |
| EntityMatchCategorizer.RuleInputs | cognite/utils/contextualization/_entity_match_categorizer.py:53-61 | succeeds if and only if every match has both fields as keys; then the service receives one entry per match, in order, holding the source field's value, the target field's value and the score; otherwise the KeyError comes from the first match lacking a field, the source field before the target field |
| EntityMatchCategorizer.Resolve | cognite/utils/contextualization/_entity_match_categorizer.py:68 | succeeds if and only if every subscript is valid for the match list; the j-th resolved match is the one the j-th subscript denotes; a failure names a subscript that is out of range |
| EntityMatchCategorizer.PatternLabel | cognite/utils/contextualization/_entity_match_categorizer.py:67 | the label is the input pattern, then " -> ", then the predicted pattern |
| EntityMatchCategorizer.BuildRows | cognite/utils/contextualization/_entity_match_categorizer.py:66-68 | succeeds if and only if every subscript of every rule is valid; then there is one row per rule, in order, labelled `input -> predicted`, holding the matches its subscripts select |
| EntityMatchCategorizer.BuildTable | cognite/utils/contextualization/_entity_match_categorizer.py:66-68 | an empty service answer fails with NoRuleColumns; otherwise the result is the same as BuildRows |
| EntityMatchCategorizer.ComputeGroups | cognite/utils/contextualization/_entity_match_categorizer.py:31-68 | succeeds if and only if the shape is right, the field check passes, every match has both fields, the service answer is non-empty and every subscript in it is valid; errors come in that order: InvalidInput exactly when the shape is wrong, then NoMatches for an empty flattened list, then the field check's error, then the rule inputs' KeyError, then NoRuleColumns, then MatchIndexOutOfRange; a success is the table resolving the service's answer to the rule inputs |
| EntityMatchCategorizer.GroupMatchesByPattern | cognite/utils/contextualization/_entity_match_categorizer.py:24-73 | the call succeeds if and only if the groups can be computed, and then it installs exactly the computed table; a failed call reports the computation's error and returns the state unchanged; it fails with InvalidInput exactly when the shape is wrong |
| EntityMatchCategorizer.View | cognite/utils/contextualization/_entity_match_categorizer.py:84 | a shown row carries the group's pattern label, its service count, its average score and its matches |
| EntityMatchCategorizer.ToPandas | cognite/utils/contextualization/_entity_match_categorizer.py:75-84 | fails with NotReady if and only if there is no table; otherwise it gives one row per group, in table order, each showing that group |
| EntityMatchCategorizer.InspectPattern | cognite/utils/contextualization/_entity_match_categorizer.py:86-105 | NotReady exactly when there is no table; PatternIndexOutOfRange exactly when the group subscript is invalid; ExampleIndexOutOfRange exactly when the group subscript is valid and the example subscript is invalid for that group; every failure is one of these three; a success returns exactly the group the first subscript denotes and the match the second subscript denotes within it |
| EntityMatchCategorizer.Selected | cognite/utils/contextualization/_entity_match_categorizer.py:130-133 | selecting gives one match list per subscript, in selection order, each the matches of the group that subscript denotes |
| EntityMatchCategorizer.Stage | cognite/utils/contextualization/_entity_match_categorizer.py:136-138 | succeeds if and only if every match has an "id" on both sides; then there is one update (source id, target id) per match, in order; otherwise it fails with the KeyError for "id" |
| EntityMatchCategorizer.SavePatterns | cognite/utils/contextualization/_entity_match_categorizer.py:119-143 | NotReady exactly when there is no table; SelectionOutOfRange exactly when some subscript is invalid; with a table and valid subscripts, the save succeeds if and only if staging the concatenated matches of the selected groups succeeds, and fails with staging's error otherwise; a success stages those matches, in selection order, and logs their number |
| CategorizerProperties.InvalidInputComesFirst | cognite/utils/contextualization/_entity_match_categorizer.py:31-32 | an input that is not a mapping holding "items" fails with InvalidInput and keeps the state, whatever the fields and the service |
| CategorizerProperties.GroupingReplacesTable | cognite/utils/contextualization/_entity_match_categorizer.py:73 | a successful grouping gives the same new state from any previous state, so the table is replaced wholesale |
| CategorizerProperties.GuardedReadsNeedTable | cognite/utils/contextualization/_entity_match_categorizer.py:81-126 | with no table, `to_pandas`, `inspect_pattern` and `save_patterns_to_cdf` all fail with the same NotReady error, whatever their arguments (guards at lines 81-82, 94-95, 125-126) |
| CategorizerProperties.FailedFirstGroupingStaysNotReady | cognite/utils/contextualization/_entity_match_categorizer.py:22-73 | a new categorizer whose first grouping failed still refuses `to_pandas` |
| CategorizerProperties.ViewOfResolved | cognite/utils/contextualization/_entity_match_categorizer.py:66-84 | over a table built from some rules, `to_pandas` shows one row per rule with its `input -> predicted` label, its count, its average and its resolved matches |
| CategorizerProperties.GroupThenView | cognite/utils/contextualization/_entity_match_categorizer.py:24-84 | after a successful grouping, `to_pandas` shows exactly the service's non-empty answer for the rule inputs, resolved against the flattened matches |
| CategorizerProperties.InspectFromEnd | cognite/utils/contextualization/_entity_match_categorizer.py:98-105 | the group subscript `i - n` inspects the same group and example as `i` |
| CategorizerProperties.SelectedAppend | cognite/utils/contextualization/_entity_match_categorizer.py:129-133 | selecting `a + b` selects `a`'s groups followed by `b`'s |
| CategorizerProperties.StageIsStagedAs | cognite/utils/contextualization/_entity_match_categorizer.py:136-138 | staging succeeds with a list `u` if and only if `u` holds one update per match, in order |
| CategorizerProperties.StageAppend | cognite/utils/contextualization/_entity_match_categorizer.py:136-138 | staging a concatenation gives the concatenation of the staged parts |
| CategorizerProperties.SaveConcatenates | cognite/utils/contextualization/_entity_match_categorizer.py:129-138 | if saving `a` and saving `b` both succeed, then saving `a + b` succeeds and submits `a`'s updates followed by `b`'s, so a repeated subscript stages its group twice |
| CategorizerProperties.SaveIsAllOrNothing | cognite/utils/contextualization/_entity_match_categorizer.py:129-132 | one invalid subscript anywhere in a selection fails the whole save, so nothing is submitted |
| CategorizerProperties.SaveOnlyPattern | cognite/utils/contextualization/_entity_match_categorizer.py:129-143 | saving subscript 0 of a one-group table stages exactly that group's matches |
| CategorizerProperties.FixtureGroups | tests/tests_unit/test_contextualization_utils/test_entity_match_categorizer.py:59-62 | with the tests' two items and mocked service, grouping by name succeeds with one pattern `[D1]L[D2].L -> [D1]L[D2]` holding both matches in order |
| CategorizerProperties.FixtureView | tests/tests_unit/test_contextualization_utils/test_entity_match_categorizer.py:75-81 | the grouped fixture shows one row of two matches |
| CategorizerProperties.FixtureGroupingFailures | tests/tests_unit/test_contextualization_utils/test_entity_match_categorizer.py:64-73 | from any state, grouping by (external_id, name) fails on the source side, grouping by (name, external_id) fails on the target side, and the bare item list is refused as InvalidInput; each failure keeps the state |
| CategorizerProperties.FixtureMissingField | tests/tests_unit/test_contextualization_utils/test_entity_match_categorizer.py:68-71 | a requested field that the fixture's first match lacks fails on the side that names it, the source side first |
| CategorizerProperties.FixtureIndexFailures | tests/tests_unit/test_contextualization_utils/test_entity_match_categorizer.py:113-129 | on the grouped fixture, inspecting (9, 0) or (0, 9) and saving [0, 1, 2] fail with the matching index errors |
| CategorizerProperties.FixtureSave | tests/tests_unit/test_contextualization_utils/test_entity_match_categorizer.py:118-122 | saving pattern 0 of the fixture stages the updates 1000→1 and 2000→2 and logs 2 |
| PySeq.Position | cognite/utils/contextualization/_entity_match_categorizer.py:99 | a valid subscript denotes a position inside the sequence: itself, or counted from the end |
| PySeq.At | cognite/utils/contextualization/_entity_match_categorizer.py:98-105 | a subscript yields an element if and only if it is valid, and the element belongs to the sequence |
| PySeq.AtFromEnd | cognite/utils/contextualization/_entity_match_categorizer.py:99 | `s[i]` and `s[i - len(s)]` are the same element |
| PySeq.Slice | cognite/utils/infrastructure/_cdf_project_archiver.py:102 | a slice clamps both bounds to the length, is the plain subsequence when the bounds are in range, and is empty past the end or when the range is inverted |
| PySeq.Concat | cognite/utils/contextualization/_entity_match_categorizer.py:133 | the flattened list's length is the sum of the inner lists' lengths |
| PySeq.ConcatMembers | cognite/utils/contextualization/_entity_match_categorizer.py:133 | an element is in the flattened list if and only if it is in one of the inner lists |
| PySeq.ConcatAppend | cognite/utils/contextualization/_entity_match_categorizer.py:133 | flattening a list of lists distributes over splitting the outer list |
| ProjectArchiver.Label | cognite/utils/infrastructure/_cdf_project_archiver.py:21-31 | exactly the eight standard types are accepted, each with one of the eight labels; any other type fails with UnknownResourceType naming it |
| ProjectArchiver.LabelTable | cognite/utils/infrastructure/_cdf_project_archiver.py:21-31 | the label of each of the eight types |
| ProjectArchiver.LabelsDistinct | cognite/utils/infrastructure/_cdf_project_archiver.py:21-31 | different accepted types have different labels |
| ProjectArchiver.PathJoin | cognite/utils/infrastructure/_cdf_project_archiver.py:66 | an absolute name is the whole result; otherwise the result is the directory, then one '/' exactly when the directory is non-empty and does not already end with '/', then the name |
| ProjectArchiver.PathJoinAppend | cognite/utils/infrastructure/_cdf_project_archiver.py:42-49 | adding the ".gzip" suffix after joining gives the same path as joining the suffixed name |
| ProjectArchiver.SaveJsonPath | cognite/utils/infrastructure/_cdf_project_archiver.py:42-49 | the written path extends the requested one, and it is longer exactly when compressing |
| ProjectArchiver.ArchiveName | cognite/utils/infrastructure/_cdf_project_archiver.py:65 | succeeds exactly for accepted types; the name is `project_label.json`, with ".gzip" appended exactly when compressing |
| ProjectArchiver.ArchiveNamesDistinct | cognite/utils/infrastructure/_cdf_project_archiver.py:45-65 | within one project, different (type, compression) choices give different archive names, so no archive overwrites another |
| ProjectArchiver.ArchiveStandardResources | cognite/utils/infrastructure/_cdf_project_archiver.py:51-77 | an unknown type fails before any action; the directory is created exactly when missing; the type is listed; a success performs exactly, in this order, the directory creation when the directory is missing, the listing, and the one write of every record to the archive name inside the directory when the listing is non-empty, and nothing else |
| ProjectArchiver.RouteOf | cognite/utils/infrastructure/_cdf_project_archiver.py:118-197 | only `archive_files` downloads file contents; every other public method archives an accepted type whose label is the method's own name (`archive_assets` archives the type labelled `assets`, and so on) |
| ProjectArchiver.RouteIsNamedType | cognite/utils/infrastructure/_cdf_project_archiver.py:118-197 | a public method other than `archive_files` archives a type if and only if that type's label is the method's name, so each method archives exactly one type |
| ProjectArchiver.EveryStandardTypeRouted | cognite/utils/infrastructure/_cdf_project_archiver.py:118-197 | every accepted type is archived by some public method |
| ProjectArchiver.TestAssetsArchiveNames | tests/tests_unit/test_infrastructure_utils/test_cdf_project_archiver.py:58-65 | the type `archive_assets` archives is written as `some-project_assets.json`, or `some-project_assets.json.gzip` when compressed |
| ProjectArchiver.TestRenamedArchiveName | tests/tests_unit/test_infrastructure_utils/test_cdf_project_archiver.py:94-101 | the type `archive_file_metadata` archives is written compressed as `some-project_file_metadata.json.gzip` |
| FileDownloads.Batch | cognite/utils/infrastructure/_cdf_project_archiver.py:102 | batch `i` has at most 100 ids, its length is fixed by how many ids remain, and its j-th id is id `100*i + j` |
| FileDownloads.Batches | cognite/utils/infrastructure/_cdf_project_archiver.py:101 | a pass tries `len // 100 + 1` batches |
| FileDownloads.BatchesUpTo | cognite/utils/infrastructure/_cdf_project_archiver.py:101-102 | the first `k` batches are batches 0 to k-1, in order |
| FileDownloads.BatchShape | cognite/utils/infrastructure/_cdf_project_archiver.py:32-102 | a pass has `len // 100 + 1` batches; each has at most 100 ids and all but the last have exactly 100; the last holds `len % 100`, so it is empty exactly when the length is a multiple of 100 |
| FileDownloads.BatchesPrefix | cognite/utils/infrastructure/_cdf_project_archiver.py:101-102 | the first `k` batches concatenate to the ids they cover |
| FileDownloads.BatchesConcat | cognite/utils/infrastructure/_cdf_project_archiver.py:101-102 | a pass's batches concatenate back to the whole work list, so no id is skipped or tried twice |
| FileDownloads.PassPrefix | cognite/utils/infrastructure/_cdf_project_archiver.py:100-108 | the counter never goes below its start while batches are tried (the full accounting is PassPrefixAccounts) |
| FileDownloads.PassPrefixAccounts | cognite/utils/infrastructure/_cdf_project_archiver.py:100-108 | after any number of batches, the counter plus the retry list's length equals the start count plus the ids tried, and only tried ids are queued |
| FileDownloads.PassFailedBatches | cognite/utils/infrastructure/_cdf_project_archiver.py:100-108 | the retry list is the concatenation, in pass order, of the batches that raised |
| FileDownloads.PassFailedIds | cognite/utils/infrastructure/_cdf_project_archiver.py:100-108 | after `k` batches, the retry list is exactly the covered ids whose batch raised, in order |
| FileDownloads.Pass | cognite/utils/infrastructure/_cdf_project_archiver.py:97-109 | after a pass, the counter plus the retry list's length equals the start count plus the work list's length |
| FileDownloads.PassRetriesFailedIds | cognite/utils/infrastructure/_cdf_project_archiver.py:100-109 | the next work list is exactly the ids whose batch raised, in their original order |
| FileDownloads.PassRetriesFailedBatches | cognite/utils/infrastructure/_cdf_project_archiver.py:100-109 | the next work list is the concatenation of the failed batches, and it holds only ids of this pass |
| FileDownloads.PassAllSucceed | cognite/utils/infrastructure/_cdf_project_archiver.py:103-106 | a pass in which every download succeeds counts every id and retries nothing |
| FileDownloads.PassAllFail | cognite/utils/infrastructure/_cdf_project_archiver.py:107-109 | a pass in which every download raises counts nothing and retries the whole work list |
| FileDownloads.Run | cognite/utils/infrastructure/_cdf_project_archiver.py:97-109 | the counter plus the remaining ids always equals the start count plus the initial work; an empty remainder means every id was counted; unfinished work means the whole fuel was spent |
| FileDownloads.MoreFuelSameOutcome | cognite/utils/infrastructure/_cdf_project_archiver.py:99-109 | once the loop has finished, more fuel does not change the outcome |
| FileDownloads.EventuallyFinishes | cognite/utils/infrastructure/_cdf_project_archiver.py:99-109 | if some pass within the fuel succeeds on every batch, the loop ends by that pass with every file counted; with pass 0 this means no retries |
| FileDownloads.NeverFinishes | cognite/utils/infrastructure/_cdf_project_archiver.py:99-109 | if every download raises, a non-empty work list is never reduced and the counter never moves, so the uncapped loop does not terminate |
| FileDownloads.DownloadDir | cognite/utils/infrastructure/_cdf_project_archiver.py:87-88 | the download directory ends with `project_file_downloads`; for a project name not starting with '/', it starts with the given directory, and it is exactly the directory followed by `project_file_downloads` when the directory is empty or ends with '/' |
| FileDownloads.DownloadDirBelow | cognite/utils/infrastructure/_cdf_project_archiver.py:87-88 | for a directory without a trailing separator, the download directory is `dirpath/project_file_downloads` |
| FileDownloads.TryBatches | cognite/utils/infrastructure/_cdf_project_archiver.py:100-108 | the `for` loop over the batches, slicing each with `ids[100*i : 100*(i+1)]`, ends with the queue and counter of the batch-by-batch pass over every batch |
| FileDownloads.DownloadPass | cognite/utils/infrastructure/_cdf_project_archiver.py:100-109 | the batch loop's queue and counter are the pass's retry list and counter |
| FileDownloads.DownloadFiles | cognite/utils/infrastructure/_cdf_project_archiver.py:79-116 | the outer loop computes the fuelled run from pass 0; the counter plus the remaining ids equals the number of files; an archive is reported exactly when nothing remains, then every file is counted and the name is the download directory, with ".zip" when compressing |
| FileDownloads.TestDownloadNames | tests/tests_unit/test_infrastructure_utils/test_cdf_project_archiver.py:130-137 | the tests' download entry is `some-project_file_downloads`, or that name plus ".zip" when compressed |

## Left out

- Remote calls. These become parameters:
  - `create_rules` is the `RuleService` function;
  - `files.list` is the id list;
  - `list(limit=None)` is the listed records;
  - `files.download` is the set of (pass, batch position) pairs whose download raises;
  - `time_series.update` is represented by the update list it would receive.
- Download failures are keyed by (pass, batch position) rather than by the ids sent. This loses nothing, because a batch's ids follow from the initial ids and the earlier outcomes. A download that raises for some calls and not others, given the same ids, is also covered.
- Missing keys in the input:
  - A KeyError for an item without "source" or "matches": items always carry both here, because the input type has them as fields.
  - A KeyError for a candidate without "target" or "score" (lines 38-39): a candidate always carries both here, because the input type has them as fields.
  - Service rows with missing keys: the service answer is modelled as a list of complete rules, each with all five keys. `pd.DataFrame` (line 66) does not raise when only some rows lack a key; it fills that cell with NaN instead.
    - A row without `inputPattern` or `predictPattern` gets a NaN label (line 67), and the grouping still installs that table.
    - A row without `numMatches` or `avgScore` gets a NaN cell.
    - A row without `matchIndex` makes the comprehension at line 68 raise a TypeError.
    - A KeyError arises only when no row has the key at all. For `numMatches` it arises only at `to_pandas` (line 84), because `rename` (line 70) skips a missing column.
  - A KeyError on `pattern_job.result["items"]` (line 66): the service answer always has its item list.
- Floating point: scores and the average score are opaque values. `np.round(..., 2)` on `avg_score` and on the printed score is not modelled.
- pandas mechanics: column renaming and the DataFrame type. The table is a list of records.
- InspectPattern: it models the two index checks only. The printing after them is not modelled, including the KeyError that a missing `compare_fields` field raises while printing (lines 114-117). A success here means that the printing stage is reached.
- The file system:
  - `json.dump` and `json.dumps`;
  - gzip;
  - `shutil.make_archive` and `rmtree`;
  - the contents of written files.
  Archive calls are modelled as the names of their actions. Whether the directory exists is a parameter.
- PathJoin: `os.path.join` is modelled with POSIX rules only (a name starting with '/' replaces the directory, and '/' is the separator). The Windows rules of `ntpath`, with drive letters and `\` separators, are not modelled.
- DownloadFiles: it does not model the `os.makedirs` of the download directory (lines 89-90) or the deletion of the uncompressed directory, because both are file-system actions.
- DownloadFiles: it runs at most `maxPasses` passes, while the source loop is uncapped. NeverFinishes shows the unbounded case. A run that stops with ids remaining stands for a source loop that is still running.
- Logging (`cognite/utils/_logging.py` and every `logger.info` line) is not part of this model. The logged save count is kept as `loggedCount`.
- `getattr(self._client, resource_type)`: dynamic dispatch is replaced by the `ListResources(resourceType)` action.
- The mock-client fixture in `tests/tests_unit/conftest.py` is not part of this model.

=== FILE: archiver.dfy ===
/** The project archiver's decisions for the standard resource types: which
    types it accepts and the label each is filed under, the names of the
    files it writes, and which directory, listing and write actions one
    archive call takes. Listing results are parameters; serialisation and the
    file system are not modelled beyond the actions' names. */
module ProjectArchiver {
  import opened Results

  /** Resource-type key (the client's attribute name) to the label used in
      the archive's file name. */
  const StandardResourceTypes: map<string, string> := map[
    "assets" := "assets",
    "time_series" := "timeseries",
    "sequences" := "sequences",
    "events" := "events",
    "files" := "file_metadata",
    "relationships" := "relationships",
    "labels" := "labels",
    "data_sets" := "datasets"
  ]

  datatype ArchiveError = UnknownResourceType(resourceType: string)

  /** The label for a resource type; only the eight standard types are
      accepted. */
  function Label(resourceType: string): (r: Result<string, ArchiveError>)
    ensures r.Success? <==>
              resourceType in {"assets", "time_series", "sequences", "events",
                               "files", "relationships", "labels", "data_sets"}
    ensures r.Failure? ==> r.error == UnknownResourceType(resourceType)
    ensures r.Success? ==>
              r.value in {"assets", "timeseries", "sequences", "events",
                          "file_metadata", "relationships", "labels", "datasets"}
  {
    if resourceType in StandardResourceTypes then Success(StandardResourceTypes[resourceType])
    else Failure(UnknownResourceType(resourceType))
  }

  /** The eight accepted types and their labels. */
  lemma LabelTable()
    ensures Label("assets") == Success("assets")
    ensures Label("time_series") == Success("timeseries")
    ensures Label("sequences") == Success("sequences")
    ensures Label("events") == Success("events")
    ensures Label("files") == Success("file_metadata")
    ensures Label("relationships") == Success("relationships")
    ensures Label("labels") == Success("labels")
    ensures Label("data_sets") == Success("datasets")
  {
  }

  /** No two accepted resource types share a label, so their archives never
      share a file name. */
  lemma LabelsDistinct(t1: string, t2: string)
    requires Label(t1).Success? && Label(t2).Success? && t1 != t2
    ensures Label(t1).value != Label(t2).value
  {
  }

  /** POSIX `os.path.join(dir, name)`: an absolute `name` discards `dir`;
      otherwise a separator is inserted unless `dir` is empty or already ends
      with one. */
  function PathJoin(dir: string, name: string): (r: string)
    ensures |r| >= |name| && r[|r| - |name|..] == name
    ensures |name| > 0 && name[0] == '/' ==> r == name
    ensures (|name| == 0 || name[0] != '/') ==> |r| >= |dir| && r[..|dir|] == dir
    ensures (|name| == 0 || name[0] != '/') ==>
              |r| == |dir| + |name| + (if |dir| == 0 || dir[|dir| - 1] == '/' then 0 else 1)
    ensures (|name| == 0 || name[0] != '/') && |dir| > 0 && dir[|dir| - 1] != '/' ==> r[|dir|] == '/'
  {
    if |name| > 0 && name[0] == '/' then name
    else if |dir| == 0 || dir[|dir| - 1] == '/' then dir + name
    else dir + "/" + name
  }

  /** Appending to a non-empty name appends to the joined path. */
  lemma PathJoinAppend(dir: string, name: string, suffix: string)
    requires |name| > 0
    ensures PathJoin(dir, name) + suffix == PathJoin(dir, name + suffix)
  {
    assert (name + suffix)[0] == name[0];
  }

  /** The base name of a standard archive, before any compression suffix. */
  function ArchiveFileName(project: string, tag: string): string {
    project + "_" + tag + ".json"
  }

  /** The path `_save_json` writes: compressed output gets a ".gzip" suffix. */
  function SaveJsonPath(filepath: string, compress: bool): (r: string)
    ensures |r| >= |filepath| && r[..|filepath|] == filepath
    ensures compress <==> |r| > |filepath|
  {
    if compress then filepath + ".gzip" else filepath
  }

  /** The name of the archive one standard resource type is written to. */
  function ArchiveName(project: string, resourceType: string, compress: bool): (r: Result<string, ArchiveError>)
    ensures r.Success? <==> Label(resourceType).Success?
    ensures r.Success? ==>
              r.value == project + "_" + Label(resourceType).value + ".json" + (if compress then ".gzip" else "")
  {
    match Label(resourceType)
    case Failure(e) => Failure(e)
    case Success(tag) => Success(SaveJsonPath(ArchiveFileName(project, tag), compress))
  }

  /** Within one project, distinct (resource type, compression) choices give
      distinct archive names, so no archive overwrites another. */
  lemma ArchiveNamesDistinct(project: string, t1: string, c1: bool, t2: string, c2: bool)
    requires Label(t1).Success? && Label(t2).Success?
    requires t1 != t2 || c1 != c2
    ensures ArchiveName(project, t1, c1).value != ArchiveName(project, t2, c2).value
  {
    var p := project + "_";
    var s1 := Label(t1).value + ".json" + (if c1 then ".gzip" else "");
    NameSplits(project, t1, c1);
    NameSplits(project, t2, c2);
    var s2 := Label(t2).value + ".json" + (if c2 then ".gzip" else "");
    if p + s1 == p + s2 {
      PrefixCancels(p, s1, s2);
      SuffixDetermines(t1, c1, t2, c2);
    }
  }

  lemma NameSplits(project: string, t: string, c: bool)
    requires Label(t).Success?
    ensures ArchiveName(project, t, c).value ==
            (project + "_") + (Label(t).value + ".json" + (if c then ".gzip" else ""))
  {
    var l := Label(t).value;
    var g := if c then ".gzip" else "";
    assert project + "_" + l + ".json" + g == (project + "_") + (l + ".json" + g);
  }

  lemma PrefixCancels(p: string, a: string, b: string)
    requires p + a == p + b
    ensures a == b
  {
    assert a == (p + a)[|p|..];
    assert b == (p + b)[|p|..];
  }

  /** The tail after the project prefix determines both the label and the
      compression flag. */
  lemma SuffixDetermines(t1: string, c1: bool, t2: string, c2: bool)
    requires Label(t1).Success? && Label(t2).Success?
    requires Label(t1).value + ".json" + (if c1 then ".gzip" else "") ==
             Label(t2).value + ".json" + (if c2 then ".gzip" else "")
    ensures t1 == t2 && c1 == c2
  {
    var s := Label(t1).value + ".json" + (if c1 then ".gzip" else "");
    // No label contains a '.', so the first '.' of the tail ends the label.
    assert s[|s| - 1] == (if c1 then 'p' else 'n');
    assert s[|s| - 1] == (if c2 then 'p' else 'n');
    assert c1 == c2;
    var l1, l2 := Label(t1).value, Label(t2).value;
    assert l1 + ".json" == l2 + ".json" by {
      var k := if c1 then 5 else 0;
      assert s[..|s| - k] == l1 + ".json";
      assert s[..|s| - k] == l2 + ".json";
    }
    assert l1 == (l1 + ".json")[..|l1|];
    assert l2 == (l2 + ".json")[..|l2|];
    assert l1 == l2;
    LabelsDistinctContra(t1, t2);
  }

  lemma LabelsDistinctContra(t1: string, t2: string)
    requires Label(t1).Success? && Label(t2).Success? && Label(t1).value == Label(t2).value
    ensures t1 == t2
  {
    if t1 != t2 {
      LabelsDistinct(t1, t2);
    }
  }

  /** The actions an archive call takes, in order; `R` stands for a record's
      full serialisation. */
  datatype Effect<R> =
    | MakeDirs(path: string)
    | ListResources(resourceType: string)
    | WriteJson(path: string, data: seq<R>, compressed: bool)

  /** The write actions among `effects`, in order. */
  function Writes<R>(effects: seq<Effect<R>>): (ws: seq<Effect<R>>)
    ensures forall w :: w in ws ==> w.WriteJson? && w in effects
    ensures (forall e :: e in effects ==> !e.WriteJson?) ==> ws == []
  {
    if |effects| == 0 then []
    else (if effects[0].WriteJson? then [effects[0]] else []) + Writes(effects[1..])
  }

  /** `_archive_standard_resources`: reject an unknown type before any
      action; create the directory when it is missing; list the records; and
      write one file holding every record unless the listing is empty. */
  function ArchiveStandardResources<R>(project: string, resourceType: string, dirpath: string,
                                       dirExists: bool, compress: bool, listed: seq<R>)
    : (r: Result<seq<Effect<R>>, ArchiveError>)
    ensures r.Failure? <==> Label(resourceType).Failure?
    ensures r.Failure? ==> r.error == UnknownResourceType(resourceType)
    ensures r.Success? ==> (MakeDirs(dirpath) in r.value <==> !dirExists)
    ensures r.Success? ==> ListResources(resourceType) in r.value
    ensures r.Success? ==> |Writes(r.value)| == (if |listed| == 0 then 0 else 1)
    ensures r.Success? && |listed| > 0 ==>
              Writes(r.value) ==
              [WriteJson(PathJoin(dirpath, ArchiveName(project, resourceType, compress).value), listed, compress)]
    ensures r.Success? ==>
              r.value == (if dirExists then [] else [MakeDirs(dirpath)]) + [ListResources(resourceType)] +
                         (if |listed| > 0
                          then [WriteJson(PathJoin(dirpath, ArchiveName(project, resourceType, compress).value),
                                          listed, compress)]
                          else [])
  {
    match Label(resourceType)
    case Failure(e) => Failure(e)
    case Success(tag) =>
      var filepath := PathJoin(dirpath, ArchiveFileName(project, tag));
      var makeDirs: seq<Effect<R>> := if dirExists then [] else [MakeDirs(dirpath)];
      var listing: seq<Effect<R>> := [ListResources(resourceType)];
      var write: seq<Effect<R>> :=
        if |listed| > 0 then [WriteJson(SaveJsonPath(filepath, compress), listed, compress)] else [];
      var effects := makeDirs + listing + write;
      WritesAppend(makeDirs, listing);
      WritesAppend(makeDirs + listing, write);
      assert Writes(makeDirs) == [] && Writes(listing) == [];
      assert Writes(write) == write;
      PathJoinAppend(dirpath, ArchiveFileName(project, tag), ".gzip");
      Success(effects)
  }

  /** Taking the writes distributes over concatenation. */
  lemma {:induction false} WritesAppend<R>(a: seq<Effect<R>>, b: seq<Effect<R>>)
    ensures Writes(a + b) == Writes(a) + Writes(b)
    decreases |a|
  {
    if |a| == 0 {
      assert a + b == b;
    } else {
      var h: seq<Effect<R>> := if a[0].WriteJson? then [a[0]] else [];
      assert (a + b)[0] == a[0];
      assert (a + b)[1..] == a[1..] + b;
      WritesAppend(a[1..], b);
      assert Writes(a + b) == h + (Writes(a[1..]) + Writes(b));
      assert h + (Writes(a[1..]) + Writes(b)) == (h + Writes(a[1..])) + Writes(b);
    }
  }

  /** The public archive methods. */
  datatype Command =
    | ArchiveAssets | ArchiveTimeseries | ArchiveSequences | ArchiveEvents
    | ArchiveFileMetadata | ArchiveFiles | ArchiveRelationships | ArchiveLabels
    | ArchiveDatasets

  /** Which internal operation a public method runs. */
  datatype Route = Standard(resourceType: string) | DownloadContent

  /** The public method's name after `archive_`. */
  function MethodLabel(cmd: Command): string
  {
    match cmd
    case ArchiveAssets => "assets"
    case ArchiveTimeseries => "timeseries"
    case ArchiveSequences => "sequences"
    case ArchiveEvents => "events"
    case ArchiveFileMetadata => "file_metadata"
    case ArchiveFiles => "files"
    case ArchiveRelationships => "relationships"
    case ArchiveLabels => "labels"
    case ArchiveDatasets => "datasets"
  }

  /** Every public method but `archive_files` archives a standard type, and
      that type's label is the method's own name. */
  function RouteOf(cmd: Command): (r: Route)
    ensures r.DownloadContent? <==> cmd == ArchiveFiles
    ensures r.Standard? ==> Label(r.resourceType) == Success(MethodLabel(cmd))
  {
    match cmd
    case ArchiveAssets => Standard("assets")
    case ArchiveTimeseries => Standard("time_series")
    case ArchiveSequences => Standard("sequences")
    case ArchiveEvents => Standard("events")
    case ArchiveFileMetadata => Standard("files")
    case ArchiveFiles => DownloadContent
    case ArchiveRelationships => Standard("relationships")
    case ArchiveLabels => Standard("labels")
    case ArchiveDatasets => Standard("data_sets")
  }

  /** A public method archives exactly the accepted type whose label is the
      method's name, so no two methods archive the same type. */
  lemma RouteIsNamedType(cmd: Command, t: string)
    requires cmd != ArchiveFiles
    ensures RouteOf(cmd) == Standard(t) <==> Label(t) == Success(MethodLabel(cmd))
  {
    if Label(t) == Success(MethodLabel(cmd)) {
      LabelsDistinctContra(t, RouteOf(cmd).resourceType);
    }
  }

  /** Every standard type is reachable through a public method. */
  lemma EveryStandardTypeRouted(t: string)
    requires Label(t).Success?
    ensures exists cmd :: RouteOf(cmd) == Standard(t)
  {
    if t == "assets" { assert RouteOf(ArchiveAssets) == Standard(t); }
    else if t == "time_series" { assert RouteOf(ArchiveTimeseries) == Standard(t); }
    else if t == "sequences" { assert RouteOf(ArchiveSequences) == Standard(t); }
    else if t == "events" { assert RouteOf(ArchiveEvents) == Standard(t); }
    else if t == "files" { assert RouteOf(ArchiveFileMetadata) == Standard(t); }
    else if t == "relationships" { assert RouteOf(ArchiveRelationships) == Standard(t); }
    else if t == "labels" { assert RouteOf(ArchiveLabels) == Standard(t); }
    else { assert RouteOf(ArchiveDatasets) == Standard(t); }
  }

  /** The names the unit tests look for in the target directory after
      `archive_assets`: the assets archive, plain and compressed. */
  lemma TestAssetsArchiveNames()
    ensures RouteOf(ArchiveAssets).Standard?
    ensures ArchiveName("some-project", RouteOf(ArchiveAssets).resourceType, false) ==
            Success("some-project_assets.json")
    ensures ArchiveName("some-project", RouteOf(ArchiveAssets).resourceType, true) ==
            Success("some-project_assets.json.gzip")
  {
    NamedAs("some-project", "assets", "assets", false, "some-project_assets.json");
    NamedAs("some-project", "assets", "assets", true, "some-project_assets.json.gzip");
  }

  /** After `archive_file_metadata`, a type whose label differs from its
      key. */
  lemma TestRenamedArchiveName()
    ensures RouteOf(ArchiveFileMetadata).Standard?
    ensures ArchiveName("some-project", RouteOf(ArchiveFileMetadata).resourceType, true) ==
            Success("some-project_file_metadata.json.gzip")
  {
    LabelTable();
    assert "some-project" + "_" + "file_metadata" == "some-project_file_metadata";
    assert "some-project_file_metadata" + ".json" + ".gzip" == "some-project_file_metadata.json.gzip";
    NamedAs("some-project", "files", "file_metadata", true, "some-project_file_metadata.json.gzip");
  }

  lemma NamedAs(project: string, t: string, tag: string, c: bool, name: string)
    requires Label(t) == Success(tag)
    requires name == project + "_" + tag + ".json" + (if c then ".gzip" else "")
    ensures ArchiveName(project, t, c) == Success(name)
  {
  }
}

=== FILE: categorizer.dfy ===
/** The entity-match categorizer: it flattens an entity-matching prediction to
    the best match per source, has a remote rule-extraction service cluster
    those matches into input/predicted patterns, keeps the resulting pattern
    table, and serves guarded reads and a selective commit over that table.

    The categorizer's only state is the optional pattern table; every
    operation is a pure function of that state and its arguments. */
module EntityMatchCategorizer {
  import opened Results
  import opened PySeq

  /** A JSON value as far as this component looks at it. `Null` is Python's
      None; scores and anything else the component only carries along are
      `Opaque`. */
  datatype Value = Null | Int(i: int) | Text(s: string) | Opaque(code: int)

  /** A source or target record: a JSON object. */
  type Record = map<string, Value>

  /** `record.get(key)`: None both when the key is absent and when it is
      mapped to null. */
  function Get(r: Record, key: string): (v: Value)
    ensures v == Null <==> key !in r || r[key] == Null
    ensures v != Null ==> key in r && r[key] == v
  {
    if key in r then r[key] else Null
  }

  /** One ranked match candidate of a prediction item. */
  datatype Candidate = Candidate(target: Record, score: Value)

  /** One prediction item: a source and its candidates, best first. */
  datatype Item = Item(source: Record, matches: seq<Candidate>)

  /** The `match_result` argument: a mapping that may or may not hold
      "items", or a value of some other type. */
  datatype MatchResult = Mapping(items: Option<seq<Item>>) | NotMapping

  /** A flattened match: a source with its top-ranked target. */
  datatype Match = Match(source: Record, target: Record, score: Value)

  /** One entry sent to the rule-extraction service. */
  datatype RuleInput = RuleInput(input: Value, predicted: Value, score: Value)

  /** One pattern returned by the rule-extraction service. `matchIndex` holds
      subscripts into the list of rule inputs. */
  datatype Rule = Rule(inputPattern: string, predictPattern: string, avgScore: Value,
                       numMatches: int, matchIndex: seq<int>)

  /** A row of the pattern table: the service's row plus the two derived
      columns, the pattern label and the resolved matches. */
  datatype Group = Group(rule: Rule, pattern: string, matches: seq<Match>)

  /** A row as `to_pandas` presents it. */
  datatype Row = Row(pattern: string, nMatches: int, avgScore: Value, matches: seq<Match>)

  /** A staged update: set the source time series' asset id to the target id. */
  datatype Update = Update(sourceId: Value, targetId: Value)

  /** What a successful save submits, and the count it logs. */
  datatype Saved = Saved(updates: seq<Update>, loggedCount: nat)

  datatype Side = SourceSide | TargetSide

  datatype Error =
    | InvalidInput                  // not a mapping holding "items"
    | NoMatches                     // `matches[0]` on an empty flattened list
    | FieldNotFound(side: Side)     // requested pattern field absent or null on the first match
    | MissingKey(side: Side, key: string)  // KeyError when subscripting a record
    | NoRuleColumns                 // the service returned no rows, so the table has no columns
    | MatchIndexOutOfRange(index: int)
    | NotReady                      // no grouping has been computed yet
    | PatternIndexOutOfRange
    | ExampleIndexOutOfRange
    | SelectionOutOfRange

  /** The remote rule-extraction call: its answer for the inputs it is sent. */
  type RuleService = seq<RuleInput> -> seq<Rule>

  /** The categorizer: no table until a grouping succeeds. */
  datatype Categorizer = Categorizer(table: Option<seq<Group>>)

  /** A fresh categorizer holds no table. */
  function New(): (c: Categorizer)
    ensures c.table.None?
  {
    Categorizer(None)
  }

  // ---------------------------------------------------------------------
  // Flattening the prediction result

  predicate HasMatch(item: Item) {
    |item.matches| > 0
  }

  /** The item reduced to its top-ranked candidate. */
  function Best(item: Item): Match
    requires HasMatch(item)
  {
    Match(item.source, item.matches[0].target, item.matches[0].score)
  }

  /** The items that have candidates, in order, each reduced to its best. */
  function Flatten(items: seq<Item>): (flat: seq<Match>)
    ensures |flat| <= |items|
  {
    if |items| == 0 then []
    else (if HasMatch(items[0]) then [Best(items[0])] else []) + Flatten(items[1..])
  }

  /** Flattening commutes with splitting the item list. */
  lemma {:induction false} FlattenAppend(a: seq<Item>, b: seq<Item>)
    ensures Flatten(a + b) == Flatten(a) + Flatten(b)
    decreases |a|
  {
    if |a| == 0 {
      assert a + b == b;
    } else {
      var h := if HasMatch(a[0]) then [Best(a[0])] else [];
      assert (a + b)[0] == a[0];
      assert (a + b)[1..] == a[1..] + b;
      FlattenAppend(a[1..], b);
      assert Flatten(a + b) == h + (Flatten(a[1..]) + Flatten(b));
      assert h + (Flatten(a[1..]) + Flatten(b)) == (h + Flatten(a[1..])) + Flatten(b);
    }
  }

  /** An item with candidates contributes exactly its best match, at the
      position given by the number of surviving items before it. */
  lemma FlattenKeeps(items: seq<Item>, i: nat)
    requires i < |items| && HasMatch(items[i])
    ensures Flatten(items[..i + 1]) == Flatten(items[..i]) + [Best(items[i])]
    ensures |Flatten(items[..i])| < |Flatten(items)|
    ensures Flatten(items)[|Flatten(items[..i])|] == Best(items[i])
  {
    assert items[..i + 1] == items[..i] + [items[i]];
    FlattenAppend(items[..i], [items[i]]);
    assert items == items[..i + 1] + items[i + 1..];
    FlattenAppend(items[..i + 1], items[i + 1..]);
  }

  /** An item without candidates contributes nothing. */
  lemma FlattenDrops(items: seq<Item>, i: nat)
    requires i < |items| && !HasMatch(items[i])
    ensures Flatten(items[..i + 1]) == Flatten(items[..i])
  {
    assert items[..i + 1] == items[..i] + [items[i]];
    FlattenAppend(items[..i], [items[i]]);
  }

  /** A match is in the flattened list exactly when it is the best match of
      some item that has candidates. */
  lemma {:induction false} FlattenMembers(items: seq<Item>, m: Match)
    ensures m in Flatten(items) <==>
            exists i :: 0 <= i < |items| && HasMatch(items[i]) && Best(items[i]) == m
    decreases |items|
  {
    if |items| > 0 {
      FlattenMembers(items[1..], m);
      if m in Flatten(items[1..]) {
        var i :| 0 <= i < |items[1..]| && HasMatch(items[1..][i]) && Best(items[1..][i]) == m;
        assert items[i + 1] == items[1..][i];
      }
      if exists i :: 0 <= i < |items| && HasMatch(items[i]) && Best(items[i]) == m {
        var i :| 0 <= i < |items| && HasMatch(items[i]) && Best(items[i]) == m;
        if i > 0 {
          assert items[1..][i - 1] == items[i];
        }
      }
    }
  }

  // ---------------------------------------------------------------------
  // Validation and the service's input

  /** The field check: only the first flattened match is inspected, the
      source field before the target field; an absent or null value counts
      as missing. */
  function CheckFields(flat: seq<Match>, sourceField: string, targetField: string): (r: Outcome<Error>)
    ensures r.Pass? <==> |flat| > 0 && Get(flat[0].source, sourceField) != Null
                                    && Get(flat[0].target, targetField) != Null
    ensures r == Fail(NoMatches) <==> |flat| == 0
    ensures r == Fail(FieldNotFound(SourceSide)) <==>
            |flat| > 0 && (sourceField !in flat[0].source || flat[0].source[sourceField] == Null)
    ensures r.Fail? ==> r.error in {NoMatches, FieldNotFound(SourceSide), FieldNotFound(TargetSide)}
  {
    if |flat| == 0 then Fail(NoMatches)
    else if Get(flat[0].source, sourceField) == Null then Fail(FieldNotFound(SourceSide))
    else if Get(flat[0].target, targetField) == Null then Fail(FieldNotFound(TargetSide))
    else Pass
  }

  /** Matches after the first never influence the field check. */
  lemma CheckFieldsLooksAtFirst(flat: seq<Match>, rest: seq<Match>, sourceField: string, targetField: string)
    requires |flat| > 0
    ensures CheckFields(flat + rest, sourceField, targetField) == CheckFields(flat[..1], sourceField, targetField)
  {
    assert (flat + rest)[0] == flat[..1][0];
  }

  /** Match `k` is the first that lacks the source key or the target key. */
  predicate FirstMissing(ms: seq<Match>, sk: string, tk: string, k: int)
  {
    && 0 <= k < |ms|
    && (forall j :: 0 <= j < k ==> sk in ms[j].source && tk in ms[j].target)
    && (sk !in ms[k].source || tk !in ms[k].target)
  }

  /** The KeyError a match's lookups raise: the source key is looked up
      first. */
  function MissingIn(m: Match, sk: string, tk: string): Error
  {
    if sk !in m.source then MissingKey(SourceSide, sk) else MissingKey(TargetSide, tk)
  }

  /** `(m["source"][sk], m["target"][tk])` for each match in turn. A key that
      is absent (not merely null) raises KeyError at the first match lacking
      it, the source key of a match before its target key. */
  function Lookups(ms: seq<Match>, sk: string, tk: string): (r: Result<seq<(Value, Value)>, Error>)
    ensures r.Success? <==> forall k :: 0 <= k < |ms| ==> sk in ms[k].source && tk in ms[k].target
    ensures r.Success? ==> |r.value| == |ms|
    ensures r.Success? ==> forall k :: 0 <= k < |ms| ==>
              sk in ms[k].source && tk in ms[k].target && r.value[k] == (ms[k].source[sk], ms[k].target[tk])
    ensures r.Failure? ==> r.error == MissingKey(SourceSide, sk) || r.error == MissingKey(TargetSide, tk)
    ensures r.Failure? ==> exists k :: FirstMissing(ms, sk, tk, k) && r.error == MissingIn(ms[k], sk, tk)
  {
    if |ms| == 0 then Success([])
    else if sk !in ms[0].source then Failure(MissingKey(SourceSide, sk))
    else if tk !in ms[0].target then Failure(MissingKey(TargetSide, tk))
    else match Lookups(ms[1..], sk, tk)
      case Failure(e) =>
        var k :| FirstMissing(ms[1..], sk, tk, k) && e == MissingIn(ms[1..][k], sk, tk);
        assert FirstMissing(ms, sk, tk, k + 1);
        Failure(e)
      case Success(rest) =>
        var r := [(ms[0].source[sk], ms[0].target[tk])] + rest;
        assert forall k :: 1 <= k < |ms| ==> ms[k] == ms[1..][k - 1];
        Success(r)
  }

  /** The list sent to the rule-extraction service: one entry per flattened
      match, in order, holding its source field, target field and score. */
  function RuleInputs(flat: seq<Match>, sourceField: string, targetField: string): (r: Result<seq<RuleInput>, Error>)
    ensures r.Success? <==>
              forall k :: 0 <= k < |flat| ==> sourceField in flat[k].source && targetField in flat[k].target
    ensures r.Success? ==> |r.value| == |flat|
    ensures r.Success? ==> forall k :: 0 <= k < |flat| ==>
              sourceField in flat[k].source && targetField in flat[k].target &&
              r.value[k] == RuleInput(flat[k].source[sourceField], flat[k].target[targetField], flat[k].score)
    ensures r.Failure? ==> r.error.MissingKey?
    ensures r.Failure? ==>
              exists k :: FirstMissing(flat, sourceField, targetField, k) &&
                          r.error == MissingIn(flat[k], sourceField, targetField)
  {
    match Lookups(flat, sourceField, targetField)
    case Failure(e) => Failure(e)
    case Success(ps) =>
      Success(seq(|ps|, k requires 0 <= k < |ps| => RuleInput(ps[k].0, ps[k].1, flat[k].score)))
  }

  // ---------------------------------------------------------------------
  // Building the pattern table

  /** The label of a pattern group. */
  function PatternLabel(rule: Rule): (p: string)
    ensures |p| == |rule.inputPattern| + 4 + |rule.predictPattern|
    ensures p[..|rule.inputPattern|] == rule.inputPattern
    ensures p[|rule.inputPattern|..|rule.inputPattern| + 4] == " -> "
    ensures p[|rule.inputPattern| + 4..] == rule.predictPattern
  {
    rule.inputPattern + " -> " + rule.predictPattern
  }

  /** `[flat[i] for i in index]`, raising IndexError at the first subscript
      Python rejects. */
  function Resolve(index: seq<int>, flat: seq<Match>): (r: Result<seq<Match>, Error>)
    ensures r.Success? <==> forall j :: 0 <= j < |index| ==> InRange(index[j], |flat|)
    ensures r.Success? ==> |r.value| == |index|
    ensures r.Success? ==> forall j :: 0 <= j < |index| ==>
              InRange(index[j], |flat|) && r.value[j] == flat[Position(index[j], |flat|)]
    ensures r.Failure? ==> exists j :: 0 <= j < |index| && !InRange(index[j], |flat|) &&
                                       r.error == MatchIndexOutOfRange(index[j])
  {
    if |index| == 0 then Success([])
    else match At(flat, index[0])
      case None => Failure(MatchIndexOutOfRange(index[0]))
      case Some(m) =>
        match Resolve(index[1..], flat)
        case Failure(e) => Failure(e)
        case Success(rest) =>
          assert forall j :: 1 <= j < |index| ==> index[j] == index[1..][j - 1];
          Success([m] + rest)
  }

  /** `groups` is the table built from `rules` over the flattened matches:
      one row per rule, in order, labelled `input -> predicted`, holding the
      matches its `matchIndex` selects, in that order. */
  ghost predicate Resolves(groups: seq<Group>, rules: seq<Rule>, flat: seq<Match>) {
    && |groups| == |rules|
    && forall k :: 0 <= k < |rules| ==>
         && groups[k].rule == rules[k]
         && groups[k].pattern == rules[k].inputPattern + " -> " + rules[k].predictPattern
         && |groups[k].matches| == |rules[k].matchIndex|
         && forall j :: 0 <= j < |rules[k].matchIndex| ==>
              InRange(rules[k].matchIndex[j], |flat|) &&
              groups[k].matches[j] == flat[Position(rules[k].matchIndex[j], |flat|)]
  }

  /** Every subscript of every rule is one Python accepts. */
  ghost predicate IndicesInRange(rules: seq<Rule>, n: nat) {
    forall k, j :: 0 <= k < |rules| && 0 <= j < |rules[k].matchIndex| ==> InRange(rules[k].matchIndex[j], n)
  }

  /** The rows for `rules`, resolving each rule's `matchIndex` in turn. */
  function BuildRows(rules: seq<Rule>, flat: seq<Match>): (r: Result<seq<Group>, Error>)
    ensures r.Success? <==> IndicesInRange(rules, |flat|)
    ensures r.Success? ==> Resolves(r.value, rules, flat)
    ensures r.Failure? ==> r.error.MatchIndexOutOfRange?
  {
    if |rules| == 0 then Success([])
    else match Resolve(rules[0].matchIndex, flat)
      case Failure(e) => Failure(e)
      case Success(ms) =>
        match BuildRows(rules[1..], flat)
        case Failure(e) =>
          assert !IndicesInRange(rules, |flat|) by {
            assert !IndicesInRange(rules[1..], |flat|);
            var k, j :| 0 <= k < |rules[1..]| && 0 <= j < |rules[1..][k].matchIndex| &&
                        !InRange(rules[1..][k].matchIndex[j], |flat|);
            assert rules[1..][k] == rules[k + 1];
          }
          Failure(e)
        case Success(rest) =>
          assert forall k :: 1 <= k < |rules| ==> rules[k] == rules[1..][k - 1];
          Success([Group(rules[0], PatternLabel(rules[0]), ms)] + rest)
  }

  /** The table built from the service's answer. An empty answer yields a
      frame without columns, so the `inputPattern` lookup raises. */
  function BuildTable(rules: seq<Rule>, flat: seq<Match>): (r: Result<seq<Group>, Error>)
    ensures r == Failure(NoRuleColumns) <==> |rules| == 0
    ensures r.Success? <==> |rules| > 0 && IndicesInRange(rules, |flat|)
    ensures r.Success? ==> Resolves(r.value, rules, flat)
  {
    if |rules| == 0 then Failure(NoRuleColumns) else BuildRows(rules, flat)
  }

  /** The service's answer for the rule inputs built from `flat`; empty when
      those inputs cannot be built, since the service is then never called. */
  function ServiceAnswer(flat: seq<Match>, fields: (string, string), createRules: RuleService): seq<Rule>
  {
    match RuleInputs(flat, fields.0, fields.1)
    case Success(inputs) => createRules(inputs)
    case Failure(_) => []
  }

  /** The input passes the shape check: a mapping that holds "items". */
  predicate WellShaped(input: MatchResult) {
    input.Mapping? && input.items.Some?
  }

  /** The whole computation of `group_matches_by_pattern` short of storing
      its result: shape check, flattening, field check on the first match,
      the service's input, the service's answer, the table. */
  function ComputeGroups(input: MatchResult, fields: (string, string), createRules: RuleService)
    : (r: Result<seq<Group>, Error>)
    ensures r == Failure(InvalidInput) <==> !WellShaped(input)
    ensures WellShaped(input) && Flatten(input.items.value) == [] ==> r == Failure(NoMatches)
    ensures WellShaped(input) && CheckFields(Flatten(input.items.value), fields.0, fields.1).Fail? ==>
              r == Failure(CheckFields(Flatten(input.items.value), fields.0, fields.1).error)
    ensures r.Success? ==>
              && WellShaped(input)
              && var flat := Flatten(input.items.value);
              && CheckFields(flat, fields.0, fields.1).Pass?
              && RuleInputs(flat, fields.0, fields.1).Success?
              && 0 < |r.value| == |ServiceAnswer(flat, fields, createRules)|
              && Resolves(r.value, ServiceAnswer(flat, fields, createRules), flat)
    ensures r.Success? <==>
              && WellShaped(input)
              && var flat := Flatten(input.items.value);
              && CheckFields(flat, fields.0, fields.1).Pass?
              && RuleInputs(flat, fields.0, fields.1).Success?
              && |ServiceAnswer(flat, fields, createRules)| > 0
              && IndicesInRange(ServiceAnswer(flat, fields, createRules), |flat|)
    ensures WellShaped(input) ==>
              var flat := Flatten(input.items.value);
              CheckFields(flat, fields.0, fields.1).Pass? ==>
                && (RuleInputs(flat, fields.0, fields.1).Failure? ==>
                      r == Failure(RuleInputs(flat, fields.0, fields.1).error))
                && (RuleInputs(flat, fields.0, fields.1).Success? && |ServiceAnswer(flat, fields, createRules)| == 0 ==>
                      r == Failure(NoRuleColumns))
                && (RuleInputs(flat, fields.0, fields.1).Success? && |ServiceAnswer(flat, fields, createRules)| > 0 &&
                    !IndicesInRange(ServiceAnswer(flat, fields, createRules), |flat|) ==>
                      r.Failure? && r.error.MatchIndexOutOfRange?)
  {
    match input
    case NotMapping => Failure(InvalidInput)
    case Mapping(None) => Failure(InvalidInput)
    case Mapping(Some(items)) =>
      var flat := Flatten(items);
      match CheckFields(flat, fields.0, fields.1)
      case Fail(e) => Failure(e)
      case Pass =>
        match RuleInputs(flat, fields.0, fields.1)
        case Failure(e) => Failure(e)
        case Success(inputs) => BuildTable(createRules(inputs), flat)
  }

  // ---------------------------------------------------------------------
  // The public operations

  /** `group_matches_by_pattern`: the table is replaced only when the whole
      computation succeeds; any failure leaves the categorizer as it was. */
  function GroupMatchesByPattern(c: Categorizer, input: MatchResult, fields: (string, string),
                                 createRules: RuleService): (r: (Categorizer, Outcome<Error>))
    ensures r.1.Fail? ==> r.0 == c
    ensures r.1 == Fail(InvalidInput) <==> !WellShaped(input)
    ensures r.1.Pass? ==> r.0.table.Some? && |r.0.table.value| > 0
    ensures r.1.Pass? ==> exists flat, rules :: Resolves(r.0.table.value, rules, flat)
    ensures r.1.Pass? <==> ComputeGroups(input, fields, createRules).Success?
    ensures r.1.Pass? ==> r.0.table == Some(ComputeGroups(input, fields, createRules).value)
    ensures r.1.Fail? ==> r.1.error == ComputeGroups(input, fields, createRules).error
  {
    match ComputeGroups(input, fields, createRules)
    case Failure(e) => (c, Fail(e))
    case Success(table) => (Categorizer(Some(table)), Pass)
  }

  /** The row as `to_pandas` shows it. */
  function View(g: Group): (row: Row)
    ensures row.pattern == g.pattern && row.matches == g.matches
    ensures row.nMatches == g.rule.numMatches && row.avgScore == g.rule.avgScore
  {
    Row(g.pattern, g.rule.numMatches, g.rule.avgScore, g.matches)
  }

  /** `to_pandas`: the table's rows, in order, once a grouping exists. */
  function ToPandas(c: Categorizer): (r: Result<seq<Row>, Error>)
    ensures r.Failure? <==> c.table.None?
    ensures r.Failure? ==> r.error == NotReady
    ensures r.Success? ==> |r.value| == |c.table.value|
    ensures r.Success? ==> forall k :: 0 <= k < |r.value| ==> r.value[k] == View(c.table.value[k])
  {
    match c.table
    case None => Failure(NotReady)
    case Some(table) => Success(seq(|table|, k requires 0 <= k < |table| => View(table[k])))
  }

  /** `inspect_pattern` without its printing: the group and example the two
      subscripts select. The group subscript is checked before the example
      subscript. */
  function InspectPattern(c: Categorizer, i: int, j: int): (r: Result<(Group, Match), Error>)
    ensures r == Failure(NotReady) <==> c.table.None?
    ensures r == Failure(PatternIndexOutOfRange) <==> c.table.Some? && !InRange(i, |c.table.value|)
    ensures r == Failure(ExampleIndexOutOfRange) <==>
              && c.table.Some? && InRange(i, |c.table.value|)
              && !InRange(j, |c.table.value[Position(i, |c.table.value|)].matches|)
    ensures r.Success? ==> c.table.Some? && r.value.0 in c.table.value && r.value.1 in r.value.0.matches
    ensures r.Failure? ==> r.error in {NotReady, PatternIndexOutOfRange, ExampleIndexOutOfRange}
    ensures r.Success? ==>
              && c.table.Some? && InRange(i, |c.table.value|)
              && var g := c.table.value[Position(i, |c.table.value|)];
              && InRange(j, |g.matches|)
              && r.value == (g, g.matches[Position(j, |g.matches|)])
  {
    match c.table
    case None => Failure(NotReady)
    case Some(table) =>
      match At(table, i)
      case None => Failure(PatternIndexOutOfRange)
      case Some(group) =>
        match At(group.matches, j)
        case None => Failure(ExampleIndexOutOfRange)
        case Some(example) => Success((group, example))
  }

  /** The match lists of the selected groups, in selection order. */
  function Selected(table: seq<Group>, sel: seq<int>): (r: seq<seq<Match>>)
    requires forall k :: 0 <= k < |sel| ==> InRange(sel[k], |table|)
    ensures |r| == |sel|
    ensures forall k :: 0 <= k < |sel| ==> r[k] == table[Position(sel[k], |table|)].matches
  {
    seq(|sel|, k requires 0 <= k < |sel| => table[Position(sel[k], |table|)].matches)
  }

  /** Every selected subscript is one Python accepts. */
  predicate SelectionInRange(sel: seq<int>, n: nat) {
    forall k :: 0 <= k < |sel| ==> InRange(sel[k], n)
  }

  /** One update per match, in order, from `match["source"]["id"]` to
      `match["target"]["id"]`; a KeyError at the first match lacking an id. */
  function Stage(ms: seq<Match>): (r: Result<seq<Update>, Error>)
    ensures r.Success? <==> forall k :: 0 <= k < |ms| ==> "id" in ms[k].source && "id" in ms[k].target
    ensures r.Success? ==> |r.value| == |ms|
    ensures r.Success? ==> forall k :: 0 <= k < |ms| ==>
              "id" in ms[k].source && "id" in ms[k].target &&
              r.value[k] == Update(ms[k].source["id"], ms[k].target["id"])
    ensures r.Failure? ==> r.error in {MissingKey(SourceSide, "id"), MissingKey(TargetSide, "id")}
  {
    match Lookups(ms, "id", "id")
    case Failure(e) => Failure(e)
    case Success(ps) => Success(seq(|ps|, k requires 0 <= k < |ps| => Update(ps[k].0, ps[k].1)))
  }

  /** `save_patterns_to_cdf` up to the remote update call: the updates it
      submits and the count it logs. Any out-of-range subscript fails the
      whole call before anything is staged. */
  function SavePatterns(c: Categorizer, sel: seq<int>): (r: Result<Saved, Error>)
    ensures r == Failure(NotReady) <==> c.table.None?
    ensures c.table.Some? ==> (r == Failure(SelectionOutOfRange) <==> !SelectionInRange(sel, |c.table.value|))
    ensures r.Success? ==>
              && c.table.Some? && SelectionInRange(sel, |c.table.value|)
              && Stage(Concat(Selected(c.table.value, sel))) == Success(r.value.updates)
              && r.value.loggedCount == |r.value.updates| == |Concat(Selected(c.table.value, sel))|
    ensures r.Failure? ==>
              r.error in {NotReady, SelectionOutOfRange, MissingKey(SourceSide, "id"), MissingKey(TargetSide, "id")}
    ensures c.table.Some? && SelectionInRange(sel, |c.table.value|) ==>
              && (r.Success? <==> Stage(Concat(Selected(c.table.value, sel))).Success?)
              && (r.Failure? ==> r.error == Stage(Concat(Selected(c.table.value, sel))).error)
  {
    match c.table
    case None => Failure(NotReady)
    case Some(table) =>
      if !SelectionInRange(sel, |table|) then Failure(SelectionOutOfRange)
      else match Stage(Concat(Selected(table, sel)))
        case Failure(e) => Failure(e)
        case Success(updates) => Success(Saved(updates, |updates|))
  }
}

=== FILE: categorizer_properties.dfy ===
/** Properties relating the categorizer's operations to one another: how a
    grouping call changes the state, what the guarded reads see afterwards,
    and how selections compose when saving. */
module CategorizerProperties {
  import opened Results
  import opened PySeq
  import opened EntityMatchCategorizer

  /** A malformed input is rejected before anything else is looked at: the
      fields and the service play no part, and the state is kept. */
  lemma InvalidInputComesFirst(c: Categorizer, input: MatchResult, fields: (string, string), createRules: RuleService)
    requires !WellShaped(input)
    ensures GroupMatchesByPattern(c, input, fields, createRules) == (c, Fail(InvalidInput))
  {
  }

  /** A successful grouping replaces the table wholesale: the new state does
      not depend on the state before the call. */
  lemma GroupingReplacesTable(c1: Categorizer, c2: Categorizer, input: MatchResult,
                              fields: (string, string), createRules: RuleService)
    requires GroupMatchesByPattern(c1, input, fields, createRules).1.Pass?
    ensures GroupMatchesByPattern(c2, input, fields, createRules) ==
            GroupMatchesByPattern(c1, input, fields, createRules)
  {
  }

  /** While no table exists, every guarded read fails with the same
      "run the grouping first" error, whatever its arguments. */
  lemma GuardedReadsNeedTable(c: Categorizer, i: int, j: int, sel: seq<int>)
    requires c.table.None?
    ensures ToPandas(c) == Failure(NotReady)
    ensures InspectPattern(c, i, j) == Failure(NotReady)
    ensures SavePatterns(c, sel) == Failure(NotReady)
  {
  }

  /** A fresh categorizer whose first grouping failed is still not ready. */
  lemma FailedFirstGroupingStaysNotReady(input: MatchResult, fields: (string, string), createRules: RuleService)
    requires GroupMatchesByPattern(New(), input, fields, createRules).1.Fail?
    ensures ToPandas(GroupMatchesByPattern(New(), input, fields, createRules).0) == Failure(NotReady)
  {
  }

  /** `rows` show the patterns `rules` over the flattened matches `flat`:
      one row per pattern in the service's order, labelled
      `input -> predicted`, with the service's count and average, holding the
      matches the pattern's `matchIndex` selects, in that order. */
  ghost predicate Shows(rows: seq<Row>, rules: seq<Rule>, flat: seq<Match>) {
    && |rows| == |rules|
    && forall k :: 0 <= k < |rules| ==>
         && rows[k].pattern == rules[k].inputPattern + " -> " + rules[k].predictPattern
         && rows[k].nMatches == rules[k].numMatches
         && rows[k].avgScore == rules[k].avgScore
         && |rows[k].matches| == |rules[k].matchIndex|
         && forall j :: 0 <= j < |rules[k].matchIndex| ==>
              InRange(rules[k].matchIndex[j], |flat|) &&
              rows[k].matches[j] == flat[Position(rules[k].matchIndex[j], |flat|)]
  }

  /** `to_pandas` over a table built from `rules` shows exactly those
      rules, resolved against `flat`. */
  lemma ViewOfResolved(groups: seq<Group>, rules: seq<Rule>, flat: seq<Match>)
    requires Resolves(groups, rules, flat)
    ensures ToPandas(Categorizer(Some(groups))).Success?
    ensures Shows(ToPandas(Categorizer(Some(groups))).value, rules, flat)
  {
  }

  /** After a successful grouping, `to_pandas` shows exactly the service's
      non-empty answer resolved against the flattened matches. */
  lemma GroupThenView(c: Categorizer, items: seq<Item>, fields: (string, string), createRules: RuleService)
    requires GroupMatchesByPattern(c, Mapping(Some(items)), fields, createRules).1.Pass?
    ensures RuleInputs(Flatten(items), fields.0, fields.1).Success?
    ensures |ServiceAnswer(Flatten(items), fields, createRules)| > 0
    ensures ToPandas(GroupMatchesByPattern(c, Mapping(Some(items)), fields, createRules).0).Success?
    ensures Shows(ToPandas(GroupMatchesByPattern(c, Mapping(Some(items)), fields, createRules).0).value,
                  ServiceAnswer(Flatten(items), fields, createRules), Flatten(items))
  {
    var g := ComputeGroups(Mapping(Some(items)), fields, createRules);
    ViewOfResolved(g.value, ServiceAnswer(Flatten(items), fields, createRules), Flatten(items));
  }

  /** A negative group subscript selects the same group and example as the
      non-negative subscript it stands for. */
  lemma InspectFromEnd(c: Categorizer, i: nat, j: int)
    requires c.table.Some? && i < |c.table.value|
    ensures InspectPattern(c, i as int - |c.table.value|, j) == InspectPattern(c, i, j)
  {
    AtFromEnd(c.table.value, i);
  }

  /** Selecting `a + b` selects `a`'s groups followed by `b`'s. */
  lemma SelectedAppend(table: seq<Group>, a: seq<int>, b: seq<int>)
    requires SelectionInRange(a, |table|) && SelectionInRange(b, |table|)
    ensures SelectionInRange(a + b, |table|)
    ensures Selected(table, a + b) == Selected(table, a) + Selected(table, b)
  {
    forall k | 0 <= k < |a + b|
      ensures InRange((a + b)[k], |table|)
    {
      if k >= |a| {
        assert (a + b)[k] == b[k - |a|];
      }
    }
  }

  /** `u` is the update list for `ms`: one update per match, in order. */
  predicate StagedAs(ms: seq<Match>, u: seq<Update>) {
    && |u| == |ms|
    && forall k :: 0 <= k < |ms| ==>
         "id" in ms[k].source && "id" in ms[k].target && u[k] == Update(ms[k].source["id"], ms[k].target["id"])
  }

  /** Staging succeeds with exactly the update list a match list describes. */
  lemma StageIsStagedAs(ms: seq<Match>, u: seq<Update>)
    ensures Stage(ms) == Success(u) <==> StagedAs(ms, u)
  {
    if StagedAs(ms, u) {
      assert Stage(ms).Success?;
      var v := Stage(ms).value;
      assert forall k :: 0 <= k < |u| ==> v[k] == u[k];
      assert v == u;
    }
  }

  lemma StagedAsAppend(m1: seq<Match>, u1: seq<Update>, m2: seq<Match>, u2: seq<Update>)
    requires StagedAs(m1, u1) && StagedAs(m2, u2)
    ensures StagedAs(m1 + m2, u1 + u2)
  {
    var ms, u := m1 + m2, u1 + u2;
    forall k | 0 <= k < |ms|
      ensures "id" in ms[k].source && "id" in ms[k].target && u[k] == Update(ms[k].source["id"], ms[k].target["id"])
    {
      if k < |m1| {
        assert ms[k] == m1[k] && u[k] == u1[k];
      } else {
        assert ms[k] == m2[k - |m1|] && u[k] == u2[k - |m1|];
      }
    }
  }

  /** Staging distributes over concatenated match lists. */
  lemma StageAppend(m1: seq<Match>, m2: seq<Match>)
    requires Stage(m1).Success? && Stage(m2).Success?
    ensures Stage(m1 + m2) == Success(Stage(m1).value + Stage(m2).value)
  {
    var u1, u2 := Stage(m1).value, Stage(m2).value;
    StageIsStagedAs(m1, u1);
    StageIsStagedAs(m2, u2);
    StagedAsAppend(m1, u1, m2, u2);
    StageIsStagedAs(m1 + m2, u1 + u2);
  }

  /** Selections compose: when saving `a` and saving `b` both succeed,
      saving `a + b` succeeds and submits `a`'s updates followed by `b`'s, so
      a repeated subscript stages its group's updates twice. */
  lemma SaveConcatenates(c: Categorizer, a: seq<int>, b: seq<int>)
    requires SavePatterns(c, a).Success? && SavePatterns(c, b).Success?
    ensures SavePatterns(c, a + b).Success?
    ensures SavePatterns(c, a + b).value.updates ==
            SavePatterns(c, a).value.updates + SavePatterns(c, b).value.updates
  {
    var table := c.table.value;
    SelectedAppend(table, a, b);
    ConcatAppend(Selected(table, a), Selected(table, b));
    StageAppend(Concat(Selected(table, a)), Concat(Selected(table, b)));
  }

  /** One out-of-range subscript anywhere in a selection fails the save, so
      no update from the valid subscripts is staged either. */
  lemma SaveIsAllOrNothing(c: Categorizer, a: seq<int>, bad: int, b: seq<int>)
    requires c.table.Some? && !InRange(bad, |c.table.value|)
    ensures SavePatterns(c, a + [bad] + b) == Failure(SelectionOutOfRange)
  {
    assert (a + [bad] + b)[|a|] == bad;
  }

  // -----------------------------------------------------------------------
  // The unit tests' scenario: two predicted items, one pattern covering both

  function FixtureSource(id: int, name: string): Record {
    map["description" := Text("Description for " + name), "id" := Int(id), "name" := Text(name)]
  }

  function FixtureResult(): MatchResult {
    Mapping(Some([
      Item(FixtureSource(1000, "Time series A"), [Candidate(FixtureSource(1, "Asset 1"), Opaque(75))]),
      Item(FixtureSource(2000, "Time series B"), [Candidate(FixtureSource(2, "Asset 2"), Opaque(50))])
    ]))
  }

  function FixtureRule(): Rule {
    Rule("[D1]L[D2].L", "[D1]L[D2]", Opaque(70), 2, [0, 1])
  }

  /** The mocked service: one pattern over both matches, whatever it is sent. */
  function FixtureService(): RuleService {
    _ => [FixtureRule()]
  }

  function FixtureGrouped(): Categorizer {
    GroupMatchesByPattern(New(), FixtureResult(), ("name", "name"), FixtureService()).0
  }

  function FixtureFlat(): seq<Match> {
    [Match(FixtureSource(1000, "Time series A"), FixtureSource(1, "Asset 1"), Opaque(75)),
     Match(FixtureSource(2000, "Time series B"), FixtureSource(2, "Asset 2"), Opaque(50))]
  }

  /** Both fixture items survive flattening, in order. */
  lemma FixtureFlatten()
    ensures Flatten(FixtureResult().items.value) == FixtureFlat()
  {
    var items := FixtureResult().items.value;
    assert items[1..][1..] == [];
  }

  /** A single rule whose subscripts pick out the whole match list in order
      gives a one-row table holding that list. */
  lemma OneRuleTable(rule: Rule, flat: seq<Match>)
    requires |rule.matchIndex| == |flat|
    requires forall j :: 0 <= j < |flat| ==> rule.matchIndex[j] == j
    ensures BuildTable([rule], flat) == Success([Group(rule, PatternLabel(rule), flat)])
  {
    var rs := [rule];
    assert IndicesInRange(rs, |flat|) by {
      forall k, j | 0 <= k < |rs| && 0 <= j < |rs[k].matchIndex|
        ensures InRange(rs[k].matchIndex[j], |flat|)
      {
        assert rs[k] == rule;
      }
    }
    var groups := BuildTable(rs, flat).value;
    assert Resolves(groups, rs, flat);
    assert |groups| == 1 && groups[0].rule == rule && groups[0].pattern == PatternLabel(rule);
    var g := groups[0];
    forall j | 0 <= j < |flat|
      ensures g.matches[j] == flat[j]
    {
      assert rs[0].matchIndex[j] == j;
    }
    assert g.matches == flat;
    assert groups == [Group(rule, PatternLabel(rule), flat)];
  }

  lemma FixtureLabel()
    ensures PatternLabel(FixtureRule()) == "[D1]L[D2].L -> [D1]L[D2]"
  {
  }

  /** The service's single pattern resolves to both matches. */
  lemma FixtureTable()
    ensures BuildTable([FixtureRule()], FixtureFlat()) ==
            Success([Group(FixtureRule(), "[D1]L[D2].L -> [D1]L[D2]", FixtureFlat())])
  {
    OneRuleTable(FixtureRule(), FixtureFlat());
    FixtureLabel();
  }

  /** Grouping the fixture by name succeeds with one pattern holding both
      flattened matches, in `matchIndex` order. */
  lemma FixtureGroups()
    ensures GroupMatchesByPattern(New(), FixtureResult(), ("name", "name"), FixtureService()).1 == Pass
    ensures FixtureGrouped().table ==
            Some([Group(FixtureRule(), "[D1]L[D2].L -> [D1]L[D2]", FixtureFlat())])
  {
    FixtureFlatten();
    FixtureTable();
    var flat := FixtureFlat();
    assert CheckFields(flat, "name", "name") == Pass;
    assert RuleInputs(flat, "name", "name").Success?;
  }

  /** `to_pandas` on the grouped fixture shows one row of two matches. */
  lemma FixtureView()
    ensures ToPandas(FixtureGrouped()).Success?
    ensures |ToPandas(FixtureGrouped()).value| == 1
    ensures ToPandas(FixtureGrouped()).value[0].nMatches == 2
    ensures ToPandas(FixtureGrouped()).value[0].pattern == "[D1]L[D2].L -> [D1]L[D2]"
  {
    FixtureGroups();
  }

  /** Grouping failures the unit tests expect, from any state (the tests
      start from the grouped fixture): a missing source field, a missing
      target field, and a result that is not a mapping. Each leaves the state
      as it was. */
  lemma FixtureGroupingFailures(c: Categorizer)
    ensures GroupMatchesByPattern(c, FixtureResult(), ("external_id", "name"), FixtureService())
            == (c, Fail(FieldNotFound(SourceSide)))
    ensures GroupMatchesByPattern(c, FixtureResult(), ("name", "external_id"), FixtureService())
            == (c, Fail(FieldNotFound(TargetSide)))
    ensures GroupMatchesByPattern(c, NotMapping, ("name", "name"), FixtureService())
            == (c, Fail(InvalidInput))
  {
    FixtureMissingField(c, ("external_id", "name"), SourceSide);
    FixtureMissingField(c, ("name", "external_id"), TargetSide);
  }

  /** Grouping the fixture by a field its first match lacks fails on that
      side. */
  lemma FixtureMissingField(c: Categorizer, fields: (string, string), side: Side)
    requires fields.0 == "name" || fields.0 == "external_id"
    requires fields.1 == "name" || fields.1 == "external_id"
    requires side == (if fields.0 == "external_id" then SourceSide else TargetSide)
    requires fields.0 == "external_id" || fields.1 == "external_id"
    ensures GroupMatchesByPattern(c, FixtureResult(), fields, FixtureService()) == (c, Fail(FieldNotFound(side)))
  {
    FixtureFlatten();
    var m := FixtureFlat()[0];
    assert "external_id" !in m.source && "external_id" !in m.target;
    assert "name" in m.source && m.source["name"] != Null;
    assert CheckFields(FixtureFlat(), fields.0, fields.1) == Fail(FieldNotFound(side));
  }

  /** Out-of-range subscripts the unit tests expect to be refused. */
  lemma FixtureIndexFailures()
    ensures InspectPattern(FixtureGrouped(), 9, 0) == Failure(PatternIndexOutOfRange)
    ensures InspectPattern(FixtureGrouped(), 0, 9) == Failure(ExampleIndexOutOfRange)
    ensures SavePatterns(FixtureGrouped(), [0, 1, 2]) == Failure(SelectionOutOfRange)
  {
    FixtureGroups();
    assert !InRange([0, 1, 2][1], 1);
  }

  /** Saving the only pattern of a one-pattern table stages exactly that
      pattern's matches. */
  lemma SaveOnlyPattern(c: Categorizer, g: Group)
    requires c.table == Some([g])
    ensures SavePatterns(c, [0]) == (match Stage(g.matches)
                                     case Success(u) => Success(Saved(u, |u|))
                                     case Failure(e) => Failure(e))
  {
    assert SelectionInRange([0], 1);
    assert Selected([g], [0]) == [g.matches];
    assert Concat([g.matches]) == g.matches by {
      assert [g.matches][..0] == [];
    }
  }

  /** The fixture's matches stage one update per match. */
  lemma FixtureStage()
    ensures Stage(FixtureFlat()) == Success([Update(Int(1000), Int(1)), Update(Int(2000), Int(2))])
  {
    var flat := FixtureFlat();
    assert flat[0].source["id"] == Int(1000) && flat[0].target["id"] == Int(1);
    assert flat[1].source["id"] == Int(2000) && flat[1].target["id"] == Int(2);
    assert Stage(flat).Success?;
    var u := Stage(flat).value;
    assert |u| == 2 && u[0] == Update(Int(1000), Int(1)) && u[1] == Update(Int(2000), Int(2));
    assert u == [Update(Int(1000), Int(1)), Update(Int(2000), Int(2))];
  }

  /** Saving the fixture's only pattern stages one update per match. */
  lemma FixtureSave()
    ensures SavePatterns(FixtureGrouped(), [0]) ==
            Success(Saved([Update(Int(1000), Int(1)), Update(Int(2000), Int(2))], 2))
  {
    FixtureGroups();
    FixtureStage();
    SaveOnlyPattern(FixtureGrouped(), Group(FixtureRule(), "[D1]L[D2].L -> [D1]L[D2]", FixtureFlat()));
  }
}

=== FILE: downloads.dfy ===
/** The file-content download of the project archiver: the work list is cut
    into batches of at most `FilesPerDownload` ids, every batch is tried once
    per pass, and the next pass retries exactly the ids of the batches that
    failed. Whether a download raises is an oracle parameter, and the loop,
    which has no attempt cap, runs on fuel. */
module FileDownloads {
  import opened Results
  import opened PySeq
  import ProjectArchiver

  /** The batch width. */
  const FilesPerDownload: nat := 100

  /** Batch `i` of a pass: `ids[100*i : 100*(i+1)]`, clamped like a Python
      slice. */
  function Batch<T>(ids: seq<T>, i: nat): (b: seq<T>)
    ensures |b| <= FilesPerDownload
    ensures i * FilesPerDownload <= |ids| ==>
              |b| == (if (i + 1) * FilesPerDownload <= |ids| then FilesPerDownload
                      else |ids| - i * FilesPerDownload)
    ensures forall j :: 0 <= j < |b| ==> i * FilesPerDownload + j < |ids| && b[j] == ids[i * FilesPerDownload + j]
  {
    Slice(ids, i * FilesPerDownload, (i + 1) * FilesPerDownload)
  }

  /** The batches one pass tries: `len(ids) // 100 + 1` of them. */
  function Batches<T>(ids: seq<T>): (bs: seq<seq<T>>)
    ensures |bs| == |ids| / FilesPerDownload + 1
  {
    BatchesUpTo(ids, |ids| / FilesPerDownload + 1)
  }

  function BatchesUpTo<T>(ids: seq<T>, k: nat): (bs: seq<seq<T>>)
    ensures |bs| == k
    ensures forall i :: 0 <= i < k ==> bs[i] == Batch(ids, i)
  {
    if k == 0 then [] else BatchesUpTo(ids, k - 1) + [Batch(ids, k - 1)]
  }

  /** How many ids the first `k` batches cover. */
  function Covered(n: nat, k: nat): nat
  {
    if k * FilesPerDownload <= n then k * FilesPerDownload else n
  }

  /** The shape of a pass's batches: every batch but the last is full, and
      the last holds the remainder, so it is empty exactly when the length is
      a multiple of the width (including the empty work list). */
  lemma BatchShape<T>(ids: seq<T>)
    ensures |Batches(ids)| == |ids| / FilesPerDownload + 1
    ensures forall i :: 0 <= i < |Batches(ids)| ==> |Batches(ids)[i]| <= FilesPerDownload
    ensures forall i :: 0 <= i < |Batches(ids)| - 1 ==> |Batches(ids)[i]| == FilesPerDownload
    ensures |Batches(ids)[|Batches(ids)| - 1]| == |ids| % FilesPerDownload
    ensures Batches(ids)[|Batches(ids)| - 1] == [] <==> |ids| % FilesPerDownload == 0
  {
    var bs := Batches(ids);
    var n := |ids|;
    forall i | 0 <= i < |bs| - 1
      ensures |bs[i]| == FilesPerDownload
    {
      DivBound(n, i + 1);
    }
    var last := |bs| - 1;
    DivBound(n, last);
    assert (last + 1) * FilesPerDownload > n;
    assert |bs[last]| == n - last * FilesPerDownload;
  }

  /** `k` full batches fit in `n` ids when `k` is at most `n / 100`. */
  lemma DivBound(n: nat, k: nat)
    requires k <= n / FilesPerDownload
    ensures k * FilesPerDownload <= n
    ensures (n / FilesPerDownload + 1) * FilesPerDownload > n
  {
  }

  /** A batch that starts inside the list is the plain slice up to the ids
      covered so far. */
  lemma BatchIsSlice<T>(ids: seq<T>, i: nat)
    requires i * FilesPerDownload <= |ids|
    ensures Covered(|ids|, i) == i * FilesPerDownload
    ensures i * FilesPerDownload <= Covered(|ids|, i + 1) <= |ids|
    ensures Batch(ids, i) == ids[i * FilesPerDownload..Covered(|ids|, i + 1)]
  {
  }

  /** The first `k` batches concatenate to the first ids they cover. */
  lemma {:induction false} BatchesPrefix<T>(ids: seq<T>, k: nat)
    requires k <= |Batches(ids)|
    ensures Concat(Batches(ids)[..k]) == ids[..Covered(|ids|, k)]
  {
    var bs := Batches(ids);
    if k == 0 {
      assert bs[..0] == [];
    } else {
      BatchesPrefix(ids, k - 1);
      assert bs[..k][..k - 1] == bs[..k - 1];
      assert Concat(bs[..k]) == Concat(bs[..k - 1]) + bs[k - 1];
      DivBound(|ids|, k - 1);
      CoveredStep(ids, k - 1);
    }
  }

  /** The ids covered by `i` batches, followed by batch `i`, are the ids
      covered by `i + 1` batches. */
  lemma CoveredStep<T>(ids: seq<T>, i: nat)
    requires i * FilesPerDownload <= |ids|
    ensures ids[..Covered(|ids|, i)] + Batch(ids, i) == ids[..Covered(|ids|, i + 1)]
  {
    BatchIsSlice(ids, i);
    var a, b := i * FilesPerDownload, Covered(|ids|, i + 1);
    assert ids[..a] + ids[a..b] == ids[..b];
  }

  /** The batches of a pass concatenate back to the whole work list: no id is
      skipped or tried twice. */
  lemma BatchesConcat<T>(ids: seq<T>)
    ensures Concat(Batches(ids)) == ids
  {
    var bs := Batches(ids);
    BatchesPrefix(ids, |bs|);
    DivBound(|ids|, 0);
    assert bs[..|bs|] == bs;
  }

  /** The downloads that raise, as (pass, batch position) pairs, passes
      counted from 0. The ids of a batch follow from the ids listed and the
      earlier outcomes, so this describes any deterministic behaviour of the
      remote download. */
  type Failures = iset<(nat, nat)>

  /** What a pass has accumulated: the ids to retry and the download
      counter. */
  datatype PassState<T> = PassState(failed: seq<T>, downloaded: nat)

  /** The state after the first `k` batches of `bs`, starting from the
      counter `start`: a success adds the batch length to the counter, a
      failure appends the batch to the retry list. */
  function PassPrefix<T>(bs: seq<seq<T>>, fails: Failures, pass: nat, start: nat, k: nat): (s: PassState<T>)
    requires k <= |bs|
    ensures start <= s.downloaded
    decreases k
  {
    if k == 0 then PassState([], start)
    else
      var s := PassPrefix(bs, fails, pass, start, k - 1);
      if (pass, k - 1) !in fails then PassState(s.failed, s.downloaded + |bs[k - 1]|)
      else PassState(s.failed + bs[k - 1], s.downloaded)
  }

  /** Every id of the batches tried so far is either counted or queued for
      retry, and only those ids are queued. */
  lemma {:induction false} PassPrefixAccounts<T>(bs: seq<seq<T>>, fails: Failures, pass: nat, start: nat, k: nat)
    requires k <= |bs|
    ensures PassPrefix(bs, fails, pass, start, k).downloaded + |PassPrefix(bs, fails, pass, start, k).failed| ==
            start + |Concat(bs[..k])|
    ensures multiset(PassPrefix(bs, fails, pass, start, k).failed) <= multiset(Concat(bs[..k]))
  {
    if k == 0 {
      assert bs[..0] == [];
    } else {
      PassPrefixAccounts(bs, fails, pass, start, k - 1);
      assert bs[..k] == bs[..k - 1] + [bs[k - 1]];
      ConcatSnoc(bs[..k - 1], bs[k - 1]);
    }
  }

  /** The batches among the first `k` of `bs` whose download raised in pass
      `pass`, in order. */
  function FailedBatches<T>(bs: seq<seq<T>>, fails: Failures, pass: nat, k: nat): (fbs: seq<seq<T>>)
    requires k <= |bs|
    ensures |fbs| <= k
    ensures forall b :: b in fbs ==> b in bs
  {
    if k == 0 then []
    else FailedBatches(bs, fails, pass, k - 1) + (if (pass, k - 1) in fails then [bs[k - 1]] else [])
  }

  /** The retry list is the concatenation of the failed batches. */
  lemma {:induction false} PassFailedBatches<T>(bs: seq<seq<T>>, fails: Failures, pass: nat, start: nat, k: nat)
    requires k <= |bs|
    ensures PassPrefix(bs, fails, pass, start, k).failed == Concat(FailedBatches(bs, fails, pass, k))
  {
    if k > 0 {
      PassFailedBatches(bs, fails, pass, start, k - 1);
      if (pass, k - 1) in fails {
        ConcatSnoc(FailedBatches(bs, fails, pass, k - 1), bs[k - 1]);
      } else {
        assert FailedBatches(bs, fails, pass, k) == FailedBatches(bs, fails, pass, k - 1);
      }
    }
  }

  /** The reference for a pass's retry list, stated on ids rather than
      batches: the first `j` ids of `work` whose batch failed, in order. */
  function FailedIds<T>(work: seq<T>, fails: Failures, pass: nat, j: nat): (r: seq<T>)
    requires j <= |work|
    ensures |r| <= j
  {
    if j == 0 then []
    else
      var i := (j - 1) / FilesPerDownload;
      FailedIds(work, fails, pass, j - 1) + (if (pass, i) !in fails then [] else [work[j - 1]])
  }

  /** Running over the ids of batch `i` up to `e` extends the failed ids by
      the part of that batch seen so far, or by nothing when the batch
      succeeded. */
  lemma {:induction false} FailedIdsInBatch<T>(work: seq<T>, fails: Failures, pass: nat, i: nat, e: nat)
    requires i * FilesPerDownload <= e <= |work| && e <= (i + 1) * FilesPerDownload
    ensures FailedIds(work, fails, pass, e) ==
            FailedIds(work, fails, pass, i * FilesPerDownload) +
            (if (pass, i) !in fails then [] else work[i * FilesPerDownload..e])
    decreases e
  {
    var a := i * FilesPerDownload;
    if e == a {
      assert work[a..a] == [];
    } else {
      FailedIdsInBatch(work, fails, pass, i, e - 1);
      assert (e - 1) / FilesPerDownload == i;
      if (pass, i) in fails {
        assert work[a..e] == work[a..e - 1] + [work[e - 1]];
        assert FailedIds(work, fails, pass, a) + work[a..e - 1] + [work[e - 1]] ==
               FailedIds(work, fails, pass, a) + work[a..e];
      }
    }
  }

  /** After `k` batches the retry list is exactly the failed ids among the
      ids those batches cover. */
  lemma {:induction false} PassFailedIds<T>(work: seq<T>, fails: Failures, pass: nat, start: nat, k: nat)
    requires k <= |Batches(work)|
    ensures PassPrefix(Batches(work), fails, pass, start, k).failed == FailedIds(work, fails, pass, Covered(|work|, k))
  {
    if k > 0 {
      var bs := Batches(work);
      PassFailedIds(work, fails, pass, start, k - 1);
      PassFailedStep(bs, fails, pass, start, k);
      DivBound(|work|, k - 1);
      FailedIdsBatchStep(work, fails, pass, k - 1);
      assert bs[k - 1] == Batch(work, k - 1);
    }
  }

  /** One more batch appends that batch to the retry list when it failed. */
  lemma PassFailedStep<T>(bs: seq<seq<T>>, fails: Failures, pass: nat, start: nat, k: nat)
    requires 0 < k <= |bs|
    ensures PassPrefix(bs, fails, pass, start, k).failed ==
            PassPrefix(bs, fails, pass, start, k - 1).failed + (if (pass, k - 1) !in fails then [] else bs[k - 1])
  {
  }

  /** The failed ids up to the end of batch `i` are those up to its start,
      followed by the whole batch when it failed. */
  lemma FailedIdsBatchStep<T>(work: seq<T>, fails: Failures, pass: nat, i: nat)
    requires i * FilesPerDownload <= |work|
    ensures FailedIds(work, fails, pass, Covered(|work|, i + 1)) ==
            FailedIds(work, fails, pass, Covered(|work|, i)) + (if (pass, i) !in fails then [] else Batch(work, i))
  {
    BatchIsSlice(work, i);
    FailedIdsInBatch(work, fails, pass, i, Covered(|work|, i + 1));
  }

  /** One pass over `work` with the counter at `start`: every id is either
      counted or queued for retry. */
  function Pass<T>(work: seq<T>, fails: Failures, pass: nat, start: nat): (s: PassState<T>)
    ensures s.downloaded + |s.failed| == start + |work|
  {
    var bs := BatchesUpTo(work, |work| / FilesPerDownload + 1);
    BatchesConcat(work);
    assert bs[..|bs|] == bs;
    PassPrefixAccounts(bs, fails, pass, start, |bs|);
    PassPrefix(bs, fails, pass, start, |bs|)
  }

  /** The next pass's work list is exactly the ids whose batch raised, in
      their original order. */
  lemma PassRetriesFailedIds<T>(work: seq<T>, fails: Failures, pass: nat, start: nat)
    ensures Pass(work, fails, pass, start).failed == FailedIds(work, fails, pass, |work|)
  {
    var bs := Batches(work);
    PassFailedIds(work, fails, pass, start, |bs|);
    DivBound(|work|, 0);
  }

  /** The next pass's work list is the concatenation, in pass order, of the
      batches whose download raised, and it holds only ids of this pass. */
  lemma PassRetriesFailedBatches<T>(work: seq<T>, fails: Failures, pass: nat, start: nat)
    ensures Pass(work, fails, pass, start).failed == Concat(FailedBatches(Batches(work), fails, pass, |Batches(work)|))
    ensures multiset(Pass(work, fails, pass, start).failed) <= multiset(work)
  {
    var bs := Batches(work);
    PassFailedBatches(bs, fails, pass, start, |bs|);
    PassPrefixAccounts(bs, fails, pass, start, |bs|);
    BatchesConcat(work);
    assert bs[..|bs|] == bs;
  }

  /** A pass in which every download succeeds leaves nothing to retry. */
  lemma {:induction false} AllSucceed<T>(work: seq<T>, fails: Failures, pass: nat, j: nat)
    requires j <= |work|
    requires forall i: nat :: (pass, i) !in fails
    ensures FailedIds(work, fails, pass, j) == []
  {
    if j > 0 {
      AllSucceed(work, fails, pass, j - 1);
    }
  }

  /** A pass in which every download raises retries the whole work list, in
      its original order. */
  lemma {:induction false} AllFail<T>(work: seq<T>, fails: Failures, pass: nat, j: nat)
    requires j <= |work|
    requires forall i: nat :: (pass, i) in fails
    ensures FailedIds(work, fails, pass, j) == work[..j]
  {
    if j > 0 {
      AllFail(work, fails, pass, j - 1);
      assert work[..j] == work[..j - 1] + [work[j - 1]];
    }
  }

  /** A pass in which every download succeeds counts every id and leaves
      nothing to retry. */
  lemma PassAllSucceed<T>(work: seq<T>, fails: Failures, pass: nat, start: nat)
    requires forall i: nat :: (pass, i) !in fails
    ensures Pass(work, fails, pass, start) == PassState([], start + |work|)
  {
    PassRetriesFailedIds(work, fails, pass, start);
    AllSucceed(work, fails, pass, |work|);
  }

  /** A pass in which every download raises counts nothing and retries the
      whole work list. */
  lemma PassAllFail<T>(work: seq<T>, fails: Failures, pass: nat, start: nat)
    requires forall i: nat :: (pass, i) in fails
    ensures Pass(work, fails, pass, start) == PassState(work, start)
  {
    PassRetriesFailedIds(work, fails, pass, start);
    AllFail(work, fails, pass, |work|);
    assert work[..|work|] == work;
  }

  /** Where the retry loop stands: the ids still to download, the counter,
      and how many passes have run. */
  datatype Progress<T> = Progress(remaining: seq<T>, downloaded: nat, passes: nat)

  /** The retry loop from pass `pass` with at most `fuel` more passes: it
      stops as soon as the work list is empty. */
  function Run<T>(work: seq<T>, fails: Failures, pass: nat, downloaded: nat, fuel: nat): (p: Progress<T>)
    ensures p.downloaded + |p.remaining| == downloaded + |work|
    ensures p.remaining == [] ==> p.downloaded == downloaded + |work|
    ensures pass <= p.passes <= pass + fuel
    ensures p.remaining != [] ==> p.passes == pass + fuel
    decreases fuel
  {
    if |work| == 0 || fuel == 0 then Progress(work, downloaded, pass)
    else
      var s := Pass(work, fails, pass, downloaded);
      Run(s.failed, fails, pass + 1, s.downloaded, fuel - 1)
  }

  /** One turn of the loop: a pass over the work list, then the rest of the
      run on the ids that failed. The pass counts or queues every id; it
      queues nothing when every download succeeds and everything when every
      download raises. */
  lemma RunStep<T>(work: seq<T>, fails: Failures, pass: nat, downloaded: nat)
    returns (next: seq<T>, count: nat)
    requires |work| > 0
    ensures forall fuel: nat :: fuel > 0 ==>
              Run(work, fails, pass, downloaded, fuel) == Run(next, fails, pass + 1, count, fuel - 1)
    ensures count + |next| == downloaded + |work|
    ensures (forall i: nat :: (pass, i) !in fails) ==> next == [] && count == downloaded + |work|
    ensures (forall i: nat :: (pass, i) in fails) ==> next == work && count == downloaded
  {
    var s := Pass(work, fails, pass, downloaded);
    next, count := s.failed, s.downloaded;
    if forall i: nat :: (pass, i) !in fails {
      PassAllSucceed(work, fails, pass, downloaded);
    }
    if forall i: nat :: (pass, i) in fails {
      PassAllFail(work, fails, pass, downloaded);
    }
  }

  /** Fuel only bounds the loop: once a run has finished, more fuel gives the
      same outcome. */
  lemma {:induction false} MoreFuelSameOutcome<T>(work: seq<T>, fails: Failures, pass: nat, downloaded: nat,
                                                 fuel: nat, extra: nat)
    requires Run(work, fails, pass, downloaded, fuel).remaining == []
    ensures Run(work, fails, pass, downloaded, fuel + extra) == Run(work, fails, pass, downloaded, fuel)
    decreases fuel
  {
    if |work| > 0 && fuel > 0 {
      var next, count := RunStep(work, fails, pass, downloaded);
      MoreFuelSameOutcome(next, fails, pass + 1, count, fuel - 1, extra);
    }
  }

  /** If some pass within the fuel succeeds on every batch, the loop ends
      having downloaded every file. */
  lemma {:induction false} EventuallyFinishes<T>(work: seq<T>, fails: Failures, pass: nat, downloaded: nat,
                                                fuel: nat, good: nat)
    requires pass <= good < pass + fuel
    requires forall i: nat :: (good, i) !in fails
    ensures Run(work, fails, pass, downloaded, fuel).remaining == []
    ensures Run(work, fails, pass, downloaded, fuel).downloaded == downloaded + |work|
    ensures Run(work, fails, pass, downloaded, fuel).passes <= good + 1
    decreases fuel
  {
    if |work| > 0 {
      if good == pass {
        FinishesAtPass(work, fails, pass, downloaded, fuel);
      } else {
        var next, count := RunStep(work, fails, pass, downloaded);
        EventuallyFinishes(next, fails, pass + 1, count, fuel - 1, good);
      }
    }
  }

  /** A pass on which every download succeeds is the last one. */
  lemma FinishesAtPass<T>(work: seq<T>, fails: Failures, pass: nat, downloaded: nat, fuel: nat)
    requires |work| > 0 && fuel > 0
    requires forall i: nat :: (pass, i) !in fails
    ensures Run(work, fails, pass, downloaded, fuel) == Progress([], downloaded + |work|, pass + 1)
  {
    var next, count := RunStep(work, fails, pass, downloaded);
  }

  /** If every download raises, a non-empty work list is never reduced: the
      source's loop does not terminate, and any fuel is used up with the
      counter unchanged. */
  lemma {:induction false} NeverFinishes<T>(work: seq<T>, fails: Failures, pass: nat, downloaded: nat, fuel: nat)
    requires |work| > 0
    requires forall p: nat, i: nat :: (p, i) in fails
    ensures Run(work, fails, pass, downloaded, fuel) == Progress(work, downloaded, pass + fuel)
    decreases fuel
  {
    if fuel > 0 {
      var next, count := RunStep(work, fails, pass, downloaded);
      NeverFinishes(work, fails, pass + 1, downloaded, fuel - 1);
    }
  }

  /** The directory the files are downloaded into. */
  function DownloadDir(project: string, dirpath: string): (r: string)
    ensures |r| >= |project| + 15 && r[|r| - |project| - 15..] == project + "_file_downloads"
    ensures (|project| == 0 || project[0] != '/') ==> |r| >= |dirpath| && r[..|dirpath|] == dirpath
    ensures (|project| == 0 || project[0] != '/') && (|dirpath| == 0 || dirpath[|dirpath| - 1] == '/') ==>
              r == dirpath + (project + "_file_downloads")
  {
    DownloadName(project);
    ProjectArchiver.PathJoin(dirpath, project + "_file_downloads")
  }

  /** The download entry's name is relative whenever the project name is. */
  lemma DownloadName(project: string)
    ensures |project + "_file_downloads"| == |project| + 15
    ensures (|project| == 0 || project[0] != '/') ==> (project + "_file_downloads")[0] != '/'
  {
    var name := project + "_file_downloads";
    assert name[0] == if |project| > 0 then project[0] else '_';
  }

  /** One pass of `_download_files`' batch loop: try every batch in order,
      counting the ids of each batch that downloads and queueing the ids of
      each batch that raises. */
  method DownloadPass<T>(work: seq<T>, fails: Failures, pass: nat, start: nat)
    returns (failed: seq<T>, count: nat)
    ensures PassState(failed, count) == Pass(work, fails, pass, start)
    ensures count + |failed| == start + |work|
  {
    failed, count := TryBatches(work, fails, pass, start);
    PassIsWholePrefix(work, fails, pass, start);
  }

  /** The body of the batch loop, run over `range(len(ids) // 100 + 1)`. */
  method TryBatches<T>(work: seq<T>, fails: Failures, pass: nat, start: nat)
    returns (failed: seq<T>, count: nat)
    ensures PassState(failed, count) == PassPrefix(Batches(work), fails, pass, start, |Batches(work)|)
  {
    var bs := Batches(work);
    failed, count := [], start;
    var i := 0;
    while i < |bs|
      invariant 0 <= i <= |bs|
      invariant PassState(failed, count) == PassPrefix(bs, fails, pass, start, i)
    {
      var batch := Batch(work, i);
      assert batch == bs[i];
      PassPrefixNext(bs, fails, pass, start, i);
      if (pass, i) !in fails {
        count := count + |batch|;
      } else {
        failed := failed + batch;
      }
      i := i + 1;
    }
  }

  /** One more turn of the batch loop: count the batch, or queue it when it
      raised. */
  lemma PassPrefixNext<T>(bs: seq<seq<T>>, fails: Failures, pass: nat, start: nat, k: nat)
    requires k < |bs|
    ensures (pass, k) !in fails ==>
              PassPrefix(bs, fails, pass, start, k + 1) ==
              PassState(PassPrefix(bs, fails, pass, start, k).failed,
                        PassPrefix(bs, fails, pass, start, k).downloaded + |bs[k]|)
    ensures (pass, k) in fails ==>
              PassPrefix(bs, fails, pass, start, k + 1) ==
              PassState(PassPrefix(bs, fails, pass, start, k).failed + bs[k],
                        PassPrefix(bs, fails, pass, start, k).downloaded)
  {
  }

  /** A pass is the batch loop run over all of its batches. */
  lemma PassIsWholePrefix<T>(work: seq<T>, fails: Failures, pass: nat, start: nat)
    ensures Pass(work, fails, pass, start) == PassPrefix(Batches(work), fails, pass, start, |Batches(work)|)
  {
  }

  /** `_download_files`: passes run while ids remain, for at most
      `maxPasses` passes. The archive name is reported once every file is
      downloaded: the directory itself, or the directory's zip archive when
      compressing. */
  method DownloadFiles<T>(project: string, dirpath: string, ids: seq<T>, fails: Failures,
                          compress: bool, maxPasses: nat)
    returns (p: Progress<T>, archive: Option<string>)
    ensures p == Run(ids, fails, 0, 0, maxPasses)
    ensures p.downloaded + |p.remaining| == |ids|
    ensures archive.Some? <==> p.remaining == []
    ensures archive.Some? ==> p.downloaded == |ids|
    ensures archive.Some? ==> archive.value == DownloadDir(project, dirpath) + (if compress then ".zip" else "")
  {
    var dir := DownloadDir(project, dirpath);
    var work := ids;
    var downloaded: nat := 0;
    var passes: nat := 0;
    while |work| > 0 && passes < maxPasses
      invariant passes <= maxPasses
      invariant Run(work, fails, passes, downloaded, maxPasses - passes) == Run(ids, fails, 0, 0, maxPasses)
      decreases maxPasses - passes
    {
      var failed, count := DownloadPass(work, fails, passes, downloaded);
      work, downloaded, passes := failed, count, passes + 1;
    }
    p := Progress(work, downloaded, passes);
    if |work| == 0 {
      archive := Some(dir + (if compress then ".zip" else ""));
    } else {
      archive := None;
    }
  }

  /** Inside a directory given without a trailing separator, the download
      directory is one level below it. */
  lemma DownloadDirBelow(project: string, dirpath: string)
    requires |dirpath| > 0 && dirpath[|dirpath| - 1] != '/'
    requires |project| == 0 || project[0] != '/'
    ensures DownloadDir(project, dirpath) == dirpath + "/" + (project + "_file_downloads")
  {
    var name := project + "_file_downloads";
    assert name[0] == if |project| > 0 then project[0] else '_';
  }

  /** The entry the unit tests look for in the target directory, and the
      archive that replaces it when compressing. */
  lemma TestDownloadNames(dirpath: string)
    requires |dirpath| > 0 && dirpath[|dirpath| - 1] != '/'
    ensures DownloadDir("some-project", dirpath) == dirpath + "/" + "some-project_file_downloads"
    ensures DownloadDir("some-project", dirpath) + ".zip" == dirpath + "/" + "some-project_file_downloads.zip"
  {
    DownloadDirBelow("some-project", dirpath);
    assert "some-project" + "_file_downloads" == "some-project_file_downloads";
    assert "some-project_file_downloads" + ".zip" == "some-project_file_downloads.zip";
  }
}

=== FILE: pyseq.dfy ===
/** The parts of Python's sequence semantics that both components rely on:
    subscripts that may count from the end, clamped slices, and `+`
    concatenation of a list of lists. */
module PySeq {
  import opened Results

  /** `i` is a subscript Python accepts for a sequence of length `n`:
      negative subscripts count from the end. */
  predicate InRange(i: int, n: nat) {
    -(n as int) <= i < n
  }

  /** The position a subscript accepted by `InRange` denotes. */
  function Position(i: int, n: nat): (k: nat)
    requires InRange(i, n)
    ensures k < n
    ensures k == i || k == n + i
  {
    if i < 0 then n + i else i
  }

  /** Python's `s[i]`: the element, or None where Python raises IndexError. */
  function At<T>(s: seq<T>, i: int): (r: Option<T>)
    ensures r.Some? <==> InRange(i, |s|)
    ensures r.Some? ==> r.value in s
  {
    if InRange(i, |s|) then Some(s[Position(i, |s|)]) else None
  }

  /** A negative subscript reaches the same element as the non-negative one
      it stands for, and a non-negative subscript is its own position. */
  lemma AtFromEnd<T>(s: seq<T>, i: nat)
    requires i < |s|
    ensures At(s, i) == Some(s[i])
    ensures At(s, i as int - |s|) == Some(s[i])
  {
  }

  /** Python's `s[lo:hi]` for non-negative bounds: both bounds are clamped to
      the length, and an inverted range is empty. */
  function Slice<T>(s: seq<T>, lo: nat, hi: nat): (r: seq<T>)
    ensures |r| <= |s|
    ensures lo <= hi <= |s| ==> r == s[lo..hi]
    ensures lo <= |s| <= hi ==> r == s[lo..]
    ensures |s| <= lo ==> r == []
    ensures hi <= lo ==> r == []
  {
    var a := if lo < |s| then lo else |s|;
    var b := if hi < |s| then hi else |s|;
    if a <= b then s[a..b] else []
  }

  /** `ss[0] + ss[1] + ... + ss[|ss|-1]`, accumulated left to right. */
  function Concat<T>(ss: seq<seq<T>>): (r: seq<T>)
    ensures |r| == TotalLength(ss)
  {
    if |ss| == 0 then [] else Concat(ss[..|ss| - 1]) + ss[|ss| - 1]
  }

  /** The summed lengths of the lists in `ss`. */
  function TotalLength<T>(ss: seq<seq<T>>): nat
  {
    if |ss| == 0 then 0 else TotalLength(ss[..|ss| - 1]) + |ss[|ss| - 1]|
  }

  /** An element is in the concatenation exactly when it is in one of the
      lists. */
  lemma {:induction false} ConcatMembers<T>(ss: seq<seq<T>>, x: T)
    ensures x in Concat(ss) <==> exists k :: 0 <= k < |ss| && x in ss[k]
    decreases |ss|
  {
    if |ss| > 0 {
      var init := ss[..|ss| - 1];
      ConcatMembers(init, x);
      if exists k :: 0 <= k < |ss| && x in ss[k] {
        var k :| 0 <= k < |ss| && x in ss[k];
        if k < |ss| - 1 {
          assert init[k] == ss[k];
        }
      }
      if exists k :: 0 <= k < |init| && x in init[k] {
        var k :| 0 <= k < |init| && x in init[k];
        assert ss[k] == init[k];
      }
    }
  }

  /** Concatenation distributes over splitting the outer list. */
  lemma {:induction false} ConcatAppend<T>(a: seq<seq<T>>, b: seq<seq<T>>)
    ensures Concat(a + b) == Concat(a) + Concat(b)
    decreases |b|
  {
    if |b| == 0 {
      assert a + b == a;
    } else {
      var b' := b[..|b| - 1];
      assert (a + b)[..|a + b| - 1] == a + b';
      ConcatAppend(a, b');
    }
  }

  /** Appending one more list to the outer list appends its elements. */
  lemma ConcatSnoc<T>(ss: seq<seq<T>>, s: seq<T>)
    ensures Concat(ss + [s]) == Concat(ss) + s
  {
    assert (ss + [s])[..|ss|] == ss;
  }
}

=== FILE: results.dfy ===
/** Failure-carrying values shared by both components: an optional value, a
    value-or-error for operations that compute something, and a pass-or-error
    outcome for operations that only succeed or raise. */
module Results {

  datatype Option<+T> = None | Some(value: T)

  datatype Result<+T, +E> = Success(value: T) | Failure(error: E)

  datatype Outcome<+E> = Pass | Fail(error: E)
}
